=== FILE: README.md ===
# InterwikiRequest: the request viewer and the new-request page, in Dafny

This project models the core of the MediaWiki extension that lets users ask
a wiki farm's staff to import an XML dump into one of the farm's wikis.
A request is filed on the special page `Special:RequestInterwiki`. It is then
read, discussed and handled in the request viewer. The model covers both
halves:

- **The viewer's form** (`ViewerForm`, `viewer_form.dfy`). It models
  `getFormDescriptor` as an ordered PHP array of fields. The model covers:
  - who may see a private request;
  - the locked banner;
  - the details section;
  - the past comments, keyed by timestamp;
  - the comment box and edit section, disabled while the request is locked;
  - the handling section, shown only to reviewers, with its notices, private
    toggle, interwiki fields and status selector;
  - the status rewrite that proposes `declined` for an invalid open request.

  `GetForm` adds the existence guard of `getForm`. The key-by-key lemmas
  (`DescriptorFields` and the lemmas after it) give an independent statement
  of which keys a viewer gets and which of them are disabled. They then prove
  that the descriptor built by array assignments and `+=` unions matches that
  statement.
- **PHP's ordered array** (`OrderedArray`). It models `$a[$k] = $v` and
  `$a += $b` as operations on a sequence of entries, with lookup and
  key-uniqueness facts.
- **The validators** (`Validators`). They model `isValidComment`,
  `isValidDatabase` (loose `in_array`), `isValidReason`,
  `isValidInterwikiPrefix` and `isValidInterwikiUrl`, with PHP's falsiness
  and `ctype_space` written out in `Php`.
- **`submitForm`** (`ViewerSubmit`). It models the four actions (comment,
  edit, interwiki, handle) in the order the code tries them. For each it
  states how the request changes, which outcome message is shown, and which
  status-log entries, notifications and interwiki insertions are requested.
  Lemmas cover:
  - the comment log only grows, across any sequence of submissions;
  - notifications go out only on a status change or a reopening edit;
  - re-submitting an edit or a handling form changes nothing;
  - a status selector left at its proposal declines an invalid request.
- **The new-request page** (`NewRequest`). It models `execute` and
  `checkPermissions`, in their order of checks. It models the guard pipeline
  of `onSubmit`, proved equal to a first-failure reading of an explicit guard
  list, and the row, file name, log entry and notification list written when
  every guard passes. It also models `getLogType` and the recipient filter of
  `sendNotifications`.
- **Requests** (`Requests`). This is the stored request as the viewer reads
  and writes it. `AddComment` appends to its comment log.

Every answer of the host is a parameter rather than a computation:
- the file repository, the requester's blocks and the global lock, and
  `parse_url`, through `ViewerForm.Platform`;
- the CSRF token check, the rate limiters, the upload machinery, the MIME
  analyser, the database clock and the rows already stored, through
  `NewRequest.UploadEnv`;
- the farm's configuration and user lookup, through `NewRequest.Site`;
- the user's blocks and read-only state, through `NewRequest.Standing`;
- the success of the request manager's interwiki insertion, as a boolean.

The duplicate query in `onSubmit` (SpecialRequestInterwiki.php:172-180)
compares only the reason and the status, not the target.
`NewRequest.IsDuplicate` follows it, and `NewRequest.DuplicateIgnoresTarget`
and `NewRequest.AcceptedBlocksSameReason` state the consequence: while a
request is still pending, a second request with the same reason is refused
even when it is for a different wiki. Once a reviewer moves the first request
to another status, the same reason is accepted again
(`NewRequest.DuplicateOnlyWhilePending`).

## Model

| member | source | states |
|---|---|---|
| Php.CtypeSpaceScan | includes/ImportDumpRequestViewer.php:424-430 | scanning a string character by character answers exactly PHP's `ctype_space`: non-empty and white space throughout |
| Php.FirstFailure | includes/Specials/SpecialRequestInterwiki.php:148-259 | a chain of guards yields nothing exactly when every guard passes, and otherwise the error of the first guard that fails, all earlier ones passing |
| OrderedArray.Assign | includes/ImportDumpRequestViewer.php:127-140 | `$a[$k] = $v` adds `$k` to the keys, makes it map to `$v` and leaves every other key's value alone; keys stay unique |
| OrderedArray.AssignPlace | includes/ImportDumpRequestViewer.php:127-140 | `$a[$k] = $v` overwrites in place when `$k` is present, so the length is kept, and appends the entry at the end when it is new |
| OrderedArray.Union | includes/ImportDumpRequestViewer.php:296-391 | `$a += $b` has the keys of both; a key takes its value from `$a` if `$a` has it and from `$b` otherwise; keys stay unique |
| OrderedArray.UnionPlace | includes/ImportDumpRequestViewer.php:296-391 | `$a += $b` keeps `$a` as a prefix, and with disjoint keys it is `$b` appended to `$a` |
| Requests.AddComment | includes/ImportDumpRequestViewer.php:518-523 | adding a comment appends exactly one entry, with the given author, time and body, and changes no other part of the request |
| ViewerForm.DisplayStatus | includes/ImportDumpRequestViewer.php:198-285 | the proposed status differs from the stored one exactly when the request is invalid (no dump file, requester globally blocked or locked) and still pending or in progress, and the difference is always `declined` |
| ViewerForm.HandleNotices | includes/ImportDumpRequestViewer.php:202-294 | the handling info carries each warning exactly when its condition holds: local block, global block, global lock, missing file, private request, no interwiki prefix yet |
| ViewerForm.PastCommentFields | includes/ImportDumpRequestViewer.php:127-140 | for every timestamp the past-comment field shows the last comment written at it, or what was there before if none; no other key is touched; keys stay unique |
| ViewerForm.HandlingFieldsShape | includes/ImportDumpRequestViewer.php:296-391 | the handling section adds exactly the handling keys this reviewer gets, each with its disabled flag; every other key is left as it was; the status selector proposes the displayed status and is disabled while the request is invalid |
| ViewerForm.DescriptorFields | includes/ImportDumpRequestViewer.php:51-396 | the array assembled group by group by assignments and `+=` unions has a field under a key exactly when the key-by-key visibility rule says so, each disabled exactly as the disabling rule says, with no key twice |
| ViewerForm.GetFormDescriptor | includes/ImportDumpRequestViewer.php:51-393 | `getFormDescriptor` gives a viewer a field under a key exactly when the key-by-key visibility rule says so (the private banner instead of any field for a hidden private request, the comment and edit fields for reviewers and the requester, the handling section for reviewers only, the private toggle for those who may view private requests, the interwiki fields only while there is no prefix); each field is disabled exactly as the disabling rule says; no key occurs twice |
| ViewerForm.DescriptorHidden | includes/ImportDumpRequestViewer.php:54-70 | a private request is hidden from someone who is neither its requester nor allowed to view private requests; it yields no fields and only the private banner; otherwise the only banner is the locked one, exactly when locked |
| ViewerForm.DescriptorStatus | includes/ImportDumpRequestViewer.php:72-125 | the details show the stored status even when the handling section proposes another; the selector proposes the displayed status and is disabled exactly when the request is invalid |
| ViewerForm.DescriptorPastComments | includes/ImportDumpRequestViewer.php:127-140 | the comment field for a timestamp shows the last comment written at that timestamp |
| ViewerForm.GetForm | includes/ImportDumpRequestViewer.php:473-500 | there is no form exactly when the id is 0 or names no stored request; a form has no fields exactly when the request is hidden from the viewer |
| ViewerForm.LocalBlockOnlyWarns | includes/ImportDumpRequestViewer.php:252-259 | a local block of the requester adds its warning and changes neither the request's validity nor the proposed status |
| Validators.IsValidComment | includes/ImportDumpRequestViewer.php:400-406 | the comment passes exactly when the comment button was not pressed or the comment has content: it is there, is not "0", and has a character that is not white space; any other answer is `htmlform-required` |
| Validators.IsValidDatabase | includes/ImportDumpRequestViewer.php:412-418 | a target is accepted exactly when it is one of the farm's databases; a null target is accepted exactly when the empty name is listed (the new-request page's copy, SpecialRequestInterwiki.php:361-367, is the same) |
| Validators.InArray | includes/ImportDumpRequestViewer.php:414 | `in_array` finds the value exactly when some element equals it loosely |
| Validators.IsValidReason | includes/ImportDumpRequestViewer.php:424-430 | a reason passes exactly when it has content: it is there, is not "0", and has a character that is not white space; otherwise it is reported missing (the new-request page's copy, SpecialRequestInterwiki.php:373-379, is the same) |
| Validators.IsValidInterwikiPrefix | includes/ImportDumpRequestViewer.php:437-443 | the prefix passes exactly when the interwiki button was not pressed or the prefix has content; otherwise it is reported missing |
| Validators.IsValidInterwikiUrl | includes/ImportDumpRequestViewer.php:450-467 | without the interwiki button the URL always passes; with it, a URL without content is reported missing, and one with content passes exactly when its parsed scheme and host are both truthy and is otherwise reported as an invalid URL |
| Validators.GuardedValidators | includes/ImportDumpRequestViewer.php:400-467 | the comment and prefix validators are the reason validator switched on by their button; the URL validator reports a missing URL exactly when the reason validator would, and accepts exactly what the reason validator accepts and has a scheme and a host |
| ViewerSubmit.SubmitComment | includes/ImportDumpRequestViewer.php:518-523 | the comment action appends exactly one comment, the submitted text signed by the user at the given time, changes nothing else and has no other effect |
| ViewerSubmit.EditChanges | includes/ImportDumpRequestViewer.php:528-556 | an edit lists a reason, source or target change, with the old and new value, exactly when that field differs; the list holds nothing else, each kind at most once, in the order reason, source, target; it is empty exactly when no field differs |
| ViewerSubmit.SubmitEdit | includes/ImportDumpRequestViewer.php:525-592 | an edit with no change leaves everything alone; otherwise the three fields take the new values and one comment from the extension's system user is added, naming the editor and listing the changes, as a reopening for a declined request and as an edit otherwise; a declined request is reopened as pending, with a status-log entry for `pending` carrying the changes and a notification carrying the new comment |
| ViewerSubmit.FlagChanges | includes/ImportDumpRequestViewer.php:622-637 | a lock change is recorded exactly when the lock flag differs; a private change exactly when the toggle was submitted and differs; each change names the new value |
| ViewerSubmit.FlagMessages | includes/ImportDumpRequestViewer.php:645-669 | each of the four success messages appears exactly when its change was made |
| ViewerSubmit.SubmitHandle | includes/ImportDumpRequestViewer.php:618-704 | the lock and private flags follow the form; with an unchanged status nothing is logged and the outcome is no changes or the flag messages; a new status adds one comment announcing it, carrying the reviewer's name and note exactly when a truthy note was given and signed by the status-update user exactly then, plus one status-log entry with the note and one notification carrying the comment |
| ViewerSubmit.SubmitForm | includes/ImportDumpRequestViewer.php:507-616 | an anonymous user is refused with nothing changed; the comment button wins and appends the comment; the interwiki action runs exactly when neither comment nor edit was pressed, requests one insertion of the submitted prefix and URL, and only a successful insertion changes the prefix, to the submitted one; only an edit or a handling form changes the status; with no button pressed nothing changes |
| ViewerSubmit.InterwikiInsertRetiresFields | includes/ImportDumpRequestViewer.php:285-292 | after a successful insertion of a prefix the validator accepts, the "no prefix" warning is gone and no viewer is offered the interwiki prefix and URL fields again (the fields are gated at 321-324); a failed insertion leaves the request as it was |
| ViewerSubmit.SubmitFormExtends | includes/ImportDumpRequestViewer.php:507-705 | no submission changes the requester, timestamp or earlier comments, and none adds more than one comment |
| ViewerSubmit.NotifiesOnlyOnStatusChange | includes/ImportDumpRequestViewer.php:560-699 | a submission writes a status-log entry, and sends the status-update notification of lines 576 and 699, exactly when it saves a new status or reopens a declined request by editing it; the notification `addComment` itself sends is not modelled |
| ViewerSubmit.EditIdempotent | includes/ImportDumpRequestViewer.php:525-592 | submitting the same edit again reports no changes |
| ViewerSubmit.HandleIdempotent | includes/ImportDumpRequestViewer.php:618-704 | submitting the same handling form again changes nothing and reports no changes |
| ViewerSubmit.ProposedStatusDeclinesInvalid | includes/ImportDumpRequestViewer.php:363-391 | an open, invalid request handled with the proposed status is declined |
| ViewerSubmit.ReplayExtends | includes/ImportDumpRequestViewer.php:507-705 | over any sequence of submissions, each by any user at any time and with any insertion outcome, the requester and timestamp never change and the comment log only grows at its end, by at most one comment per submission |
| NewRequest.NotifiedUsers | includes/Specials/SpecialRequestInterwiki.php:320-355 | a user is notified exactly when a configured name resolves to them and they handle requests and, for a private target, may view private requests |
| NewRequest.PrivateTargetsNarrowAudience | includes/Specials/SpecialRequestInterwiki.php:302-340 | through `getLogType`, a user is notified exactly when a configured name resolves to them and they handle requests, and, when CreateWiki is loaded, uses private wikis and the target wiki is private, they may also view private requests |
| NewRequest.SubmitCheck | includes/Specials/SpecialRequestInterwiki.php:148-245 | a bad token is always the reported error; a submission passing every check has a valid token, is no duplicate, and has an XML MIME type with the `xml` extension |
| NewRequest.SubmitCheckFirstFailure | includes/Specials/SpecialRequestInterwiki.php:148-245 | the chain of checks is the first-failure reading of the eleven guards in their order |
| NewRequest.OnSubmit | includes/Specials/SpecialRequestInterwiki.php:148-296 | a failed check is returned unchanged; otherwise one pending row with the submitted fields is written, the dump is published as target-timestamp.xml, the log entry carries the user, the target and the reason and goes to the private log exactly for private targets, and with Echo loaded exactly the qualifying configured users are notified; without Echo nobody is |
| NewRequest.OnSubmitAcceptedIffAllPass | includes/Specials/SpecialRequestInterwiki.php:148-296 | a request is filed exactly when every guard passes; a rejection carries the error of the first failing guard |
| NewRequest.IsDuplicate | includes/Specials/SpecialRequestInterwiki.php:172-184 | a submission is a duplicate exactly when some stored row has its reason and is still pending |
| NewRequest.DuplicateIgnoresTarget | includes/Specials/SpecialRequestInterwiki.php:172-184 | whether a submission is a duplicate does not depend on its target |
| NewRequest.AcceptedBlocksSameReason | includes/Specials/SpecialRequestInterwiki.php:172-184 | right after filing, and while the filed request is still pending, a submission with the same reason is a duplicate, whatever its target |
| NewRequest.DuplicateOnlyWhilePending | includes/Specials/SpecialRequestInterwiki.php:172-184 | a stored row makes a submission a duplicate exactly when it has the same reason and is still pending; a row moved to any other status no longer blocks that reason |
| NewRequest.CheckPermissions | includes/Specials/SpecialRequestInterwiki.php:381-409 | the page opens exactly when the user has the request right and upload permission, is not locally blocked from uploading or requesting, is not globally blocked, the wiki is writable and uploads are enabled; a local block that does neither is ignored |
| NewRequest.CheckPermissionsFirstFailure | includes/Specials/SpecialRequestInterwiki.php:381-409 | the error thrown is that of the first failing check, in the order request right, upload permission, local block, global block, read-only, uploads enabled |
| NewRequest.Execute | includes/Specials/SpecialRequestInterwiki.php:66-97 | a configured central wiki other than this one refuses first, then an anonymous user; on the central wiki a registered user gets exactly the answer of `checkPermissions` |
| NewRequest.ExecuteFirstFailure | includes/Specials/SpecialRequestInterwiki.php:66-97 | opening the page is one chain of checks, the central wiki, then login, then those of `checkPermissions`, and the error shown is the first failing one's |

## Left out

- HTML and messages: boxes, message keys and their parameters, the
  `importDump` command line and the file size formatting are reduced to
  constructors (`Notice`, `Value`, `Outcome`). The text of comments is
  reduced to `CommentBody`.
- The request manager is not part of this model. `fromID`, `exists`, the
  setters, `addComment`, `logStatusUpdate`, `sendNotification` and
  `insertInterwikiPrefix` are modelled by their effect on the `Request`
  record, or recorded as an `Effect`. Any notification `addComment` itself
  sends is not modelled.
- `isPrivate( true )`, which decides whether the private toggle is
  disabled, is the manager's answer and is taken as a parameter
  (`Platform.privateToggleDisabled`), because the manager's code is not part
  of this model.
- `insertInterwikiPrefix` is the manager's. Its success is a parameter, and a
  successful insertion is modelled as storing the submitted prefix on the
  request; the interwiki table row it writes and any log entry are not
  modelled.
- Database transactions (`startAtomic`/`endAtomic`), the row query and
  insertion in `onSubmit` are reduced to a sequence of rows and the row
  returned. Collation and ordering of rows are not modelled.
- The upload machinery is reduced to its answers in `UploadEnv`: `pingLimiter`,
  the upload throttle, `UploadBase::isEnabled` and `isAllowed`, `fetchFile`,
  `detectVirus`, the MIME analyser, stashing and publishing. How those
  answers are computed is not modelled. The rate limiter's side effect
  (counting the attempt) is not modelled.
- `parse_url` is a parameter of `Platform`, not a model of URL parsing.
- HTMLForm's own behaviour is not modelled: running validators before the
  submit callback, and ignoring disabled fields.
- `Validators.IsValidDatabase`: the submitted value and the database names
  are both strings, so PHP 8's loose comparison between two numeric strings
  (`"1e1" == "10"`) is not modelled; the model compares strings exactly.
- `Validators.InArray`: the same gap, as it is the scan `IsValidDatabase`
  uses; its element comparison `LooseEquals` is exact string equality, with
  `null` equal only to the empty string.
- `ViewerForm.PastCommentFields`: a comment key `'comment' . $timestamp`
  can never collide with the comment box's `'comment'` key in the model
  (separate constructors), while in PHP an empty timestamp would.
- The Echo presentation models, the request queue page, the hooks, the
  installer, service wiring and the front-end JavaScript.
- The form fields of the new-request page (`getFormFields`) and its display
  format. Only their validators are modelled.

=== FILE: new_request.dfy ===
/** The special page that files a new import request: who may open it, the
    guards a submission passes before a request row is written, the log
    type, and who is notified. */
module NewRequest {
  import opened Php
  import opened Requests

  /** What the user typed into the new-request form. */
  datatype RequestData = RequestData(source: string, target: string, reason: string)

  /** A stored request row, as far as this page reads and writes it. */
  datatype Row = Row(source: string, target: string, reason: string, status: Status, actorId: int, timestamp: string)

  /** What the host reports while a submission is handled. Every field is
      an answer of the platform: the CSRF check, the rate limiter and the
      upload throttle, the upload machinery's checks in order, the MIME
      analyser, the database clock, and the rows already stored. */
  datatype UploadEnv = UploadEnv(
    tokenMatches: bool,
    pingLimited: bool,
    uploadThrottled: bool,
    rows: seq<Row>,
    uploadEnabled: bool,
    uploadPermission: Option<string>,
    fetchError: Option<string>,
    virus: Option<string>,
    mime: string,
    extensionOfMime: string -> Option<string>,
    stashError: Option<string>,
    publishError: Option<string>,
    now: string)

  /** The wiki farm's configuration and extensions, as this page consults
      them: whether CreateWiki is loaded and uses private wikis, which
      wikis are private, whether Echo is loaded, the users notified of every
      request, and the users those names resolve to. */
  datatype Site = Site(
    createWikiLoaded: bool,
    usePrivateWikis: bool,
    wikiIsPrivate: string -> bool,
    echoLoaded: bool,
    notifiedOnAllRequests: seq<string>,
    userNamed: string -> Option<User>)

  /** The errors `onSubmit` returns, in the order it checks for them. */
  datatype SubmitError =
    | SessionFailure
    | ActionThrottled
    | DuplicateRequest
    | UploadDisabled
    | PermissionDenied(right: string)
    | FetchFailed(fetchMessage: string)
    | UploadVirus(virusName: string)
    | MimeMismatch(foundMime: string)
    | BannedType(foundExtension: string)
    | StashFailed(stashMessage: string)
    | PublishFailed(publishMessage: string)

  /** The two log types a new request is written to. */
  datatype LogType = PublicLog | PrivateLog

  datatype LogEntry = LogEntry(logType: LogType, performer: string, requestTarget: string, comment: string)

  /** A successful submission: the row written, the file the dump is
      published under and its archive path, the log entry, and the users
      notified. */
  datatype Filed = Filed(row: Row, fileName: string, publishPath: string, archivePath: string,
                         log: LogEntry, notified: seq<User>)

  datatype SubmitResult = Rejected(error: SubmitError) | Accepted(filed: Filed)

  // ---------------------------------------------------------------------
  // The guards.

  /** The duplicate query of `onSubmit`, read as a scan of the stored rows:
      a row with the same reason that is still pending. Neither the target
      nor the source is compared. */
  function IsDuplicate(rows: seq<Row>, data: RequestData): (dup: bool)
    ensures dup <==> exists i :: 0 <= i < |rows| && rows[i].reason == data.reason && rows[i].status == Pending
  {
    if |rows| == 0 then false
    else if rows[0].reason == data.reason && rows[0].status == Pending then true
    else
      var rest := IsDuplicate(rows[1..], data);
      assert forall i :: 1 <= i < |rows| ==> rows[i] == rows[1..][i - 1];
      rest
  }

  /** The MIME types the page accepts for a dump. */
  predicate IsXmlMime(mime: string) {
    mime == "application/xml" || mime == "text/xml"
  }

  /** `detectVirus` reports a virus by a truthy name. */
  predicate VirusFound(virus: Option<string>) {
    !FalsyOpt(virus)
  }

  /** The extension named in the banned-type error: the one the MIME
      analyser gives, or "unknown". */
  function ExtensionLabel(ext: Option<string>): string {
    if ext.Some? then ext.value else "unknown"
  }

  /** The guards of `onSubmit` as a list, in the order they run. */
  function Guards(env: UploadEnv, data: RequestData): (gs: seq<Guard<SubmitError>>)
    ensures |gs| == 11
  {
    [ Guard(env.tokenMatches, SessionFailure),
      Guard(!env.pingLimited && !env.uploadThrottled, ActionThrottled),
      Guard(!IsDuplicate(env.rows, data), DuplicateRequest),
      Guard(env.uploadEnabled, UploadDisabled),
      Guard(env.uploadPermission.None?, PermissionDenied(if env.uploadPermission.Some? then env.uploadPermission.value else "")),
      Guard(env.fetchError.None?, FetchFailed(if env.fetchError.Some? then env.fetchError.value else "")),
      Guard(!VirusFound(env.virus), UploadVirus(if env.virus.Some? then env.virus.value else "")),
      Guard(IsXmlMime(env.mime), MimeMismatch(env.mime)),
      Guard(env.extensionOfMime(env.mime) == Some("xml"), BannedType(ExtensionLabel(env.extensionOfMime(env.mime)))),
      Guard(env.stashError.None?, StashFailed(if env.stashError.Some? then env.stashError.value else "")),
      Guard(env.publishError.None?, PublishFailed(if env.publishError.Some? then env.publishError.value else "")) ]
  }

  // ---------------------------------------------------------------------
  // Log type and notifications.

  /** `getLogType`: the private log only when CreateWiki is loaded, uses
      private wikis, and the target wiki is private. */
  function GetLogType(target: string, site: Site): (t: LogType)
    ensures t == PrivateLog <==> site.createWikiLoaded && site.usePrivateWikis && site.wikiIsPrivate(target)
  {
    if !site.createWikiLoaded || !site.usePrivateWikis then PublicLog
    else if site.wikiIsPrivate(target) then PrivateLog
    else PublicLog
  }

  /** Whether a resolved user is sent the new-request notification. */
  predicate Notifiable(u: User, logType: LogType) {
    HandleRequests in u.rights && (logType == PrivateLog ==> ViewPrivateRequests in u.rights)
  }

  /** `sendNotifications`: the configured names that resolve to a user who
      handles requests, and, for a private target, also views private ones;
      in configuration order. */
  function NotifiedUsers(names: seq<string>, userNamed: string -> Option<User>, logType: LogType): (us: seq<User>)
    ensures forall u :: u in us <==>
      exists i :: 0 <= i < |names| && userNamed(names[i]) == Some(u) && Notifiable(u, logType)
    ensures |us| <= |names|
  {
    if |names| == 0 then []
    else
      var rest := NotifiedUsers(names[1..], userNamed, logType);
      assert forall i :: 1 <= i < |names| ==> names[i] == names[1..][i - 1];
      var head := userNamed(names[0]);
      if head.Some? && Notifiable(head.value, logType) then [head.value] + rest else rest
  }

  // ---------------------------------------------------------------------
  // onSubmit.

  /** The dump's file name: target, timestamp, `.xml`. */
  function DumpFileName(target: string, now: string): string {
    target + "-" + now + ".xml"
  }

  /** The checks of `onSubmit`, in the order it makes them: the error of
      the first that fails, or `None`. */
  function SubmitCheck(data: RequestData, env: UploadEnv): (e: Option<SubmitError>)
    ensures !env.tokenMatches ==> e == Some(SessionFailure)
    ensures e.None? ==>
      env.tokenMatches && !IsDuplicate(env.rows, data) && IsXmlMime(env.mime) && env.extensionOfMime(env.mime) == Some("xml")
  {
    if !env.tokenMatches then Some(SessionFailure)
    else if env.pingLimited || env.uploadThrottled then Some(ActionThrottled)
    else if IsDuplicate(env.rows, data) then Some(DuplicateRequest)
    else if !env.uploadEnabled then Some(UploadDisabled)
    else if env.uploadPermission.Some? then Some(PermissionDenied(env.uploadPermission.value))
    else if env.fetchError.Some? then Some(FetchFailed(env.fetchError.value))
    else if VirusFound(env.virus) then Some(UploadVirus(env.virus.value))
    else if !IsXmlMime(env.mime) then Some(MimeMismatch(env.mime))
    else if env.extensionOfMime(env.mime) != Some("xml") then
      Some(BannedType(ExtensionLabel(env.extensionOfMime(env.mime))))
    else if env.stashError.Some? then Some(StashFailed(env.stashError.value))
    else if env.publishError.Some? then Some(PublishFailed(env.publishError.value))
    else None
  }

  /** `onSubmit`: a failed check returns its error and writes nothing;
      otherwise one pending row is written with the submitted source, target
      and reason, the dump is published under its file name, the request is
      logged, and the configured users are notified when Echo is loaded and
      the list is not empty. */
  function OnSubmit(data: RequestData, user: User, env: UploadEnv, site: Site): (r: SubmitResult)
    ensures r.Rejected? <==> SubmitCheck(data, env).Some?
    ensures r.Rejected? ==> r.error == SubmitCheck(data, env).value
    ensures r.Accepted? ==>
      && r.filed.row == Row(data.source, data.target, data.reason, Pending, user.actorId, env.now)
      && r.filed.fileName == data.target + "-" + env.now + ".xml"
      && r.filed.publishPath == "/RequestInterwiki/" + r.filed.fileName
      && r.filed.archivePath == "/RequestInterwiki/archive/" + r.filed.fileName
      && r.filed.log.comment == data.reason
      && r.filed.log.performer == user.name
    ensures r.Accepted? ==>
      (r.filed.log.logType == PrivateLog <==> site.createWikiLoaded && site.usePrivateWikis && site.wikiIsPrivate(data.target))
    ensures r.Accepted? ==> r.filed.log.requestTarget == data.target
    ensures r.Accepted? ==> forall u :: u in r.filed.notified <==>
      && site.echoLoaded
      && (exists i :: 0 <= i < |site.notifiedOnAllRequests| && site.userNamed(site.notifiedOnAllRequests[i]) == Some(u))
      && Notifiable(u, r.filed.log.logType)
    ensures r.Accepted? && site.echoLoaded ==>
      r.filed.notified == NotifiedUsers(site.notifiedOnAllRequests, site.userNamed, r.filed.log.logType)
  {
    match SubmitCheck(data, env)
    case Some(e) => Rejected(e)
    case None =>
      var fileName := DumpFileName(data.target, env.now);
      var logType := GetLogType(data.target, site);
      var notified :=
        if site.echoLoaded && |site.notifiedOnAllRequests| > 0 then
          NotifiedUsers(site.notifiedOnAllRequests, site.userNamed, logType)
        else [];
      Accepted(Filed(
        Row(data.source, data.target, data.reason, Pending, user.actorId, env.now),
        fileName,
        "/RequestInterwiki/" + fileName,
        "/RequestInterwiki/archive/" + fileName,
        LogEntry(logType, user.name, data.target, data.reason),
        notified))
  }

  /** The chain of checks is the guard list read first-failure-wins: a
      submission is rejected with the error of the first guard that fails,
      and accepted exactly when every guard passes. */
  lemma {:induction false} SubmitCheckFirstFailure(data: RequestData, env: UploadEnv)
    ensures SubmitCheck(data, env) == FirstFailure(Guards(env, data))
  {
    var gs := Guards(env, data);
    if gs[0].passes && gs[1].passes && gs[2].passes && gs[3].passes && gs[4].passes && gs[5].passes {
      SubmitCheckLate(data, env);
    } else {
      SubmitCheckEarly(data, env);
    }
  }

  /** The chain when one of the request and upload checks fails. */
  lemma {:induction false} SubmitCheckEarly(data: RequestData, env: UploadEnv)
    requires var gs := Guards(env, data);
      !(gs[0].passes && gs[1].passes && gs[2].passes && gs[3].passes && gs[4].passes && gs[5].passes)
    ensures SubmitCheck(data, env) == FirstFailure(Guards(env, data))
  {
    var gs := Guards(env, data);
    if !(gs[0].passes && gs[1].passes && gs[2].passes) {
      SubmitCheckRequest(data, env);
    } else {
      SubmitCheckUpload(data, env);
    }
  }

  /** The chain when the token, rate-limit or duplicate check fails. */
  lemma {:induction false} SubmitCheckRequest(data: RequestData, env: UploadEnv)
    requires var gs := Guards(env, data); !(gs[0].passes && gs[1].passes && gs[2].passes)
    ensures SubmitCheck(data, env) == FirstFailure(Guards(env, data))
  {
    var gs := Guards(env, data);
    if !gs[0].passes {
      FirstFailureAt(gs, 0);
    } else if !gs[1].passes {
      FirstFailureAt(gs, 1);
    } else {
      FirstFailureAt(gs, 2);
    }
  }

  /** The chain when the request checks pass and an upload precondition or
      the fetch fails. */
  lemma {:induction false} SubmitCheckUpload(data: RequestData, env: UploadEnv)
    requires var gs := Guards(env, data);
      gs[0].passes && gs[1].passes && gs[2].passes && !(gs[3].passes && gs[4].passes && gs[5].passes)
    ensures SubmitCheck(data, env) == FirstFailure(Guards(env, data))
  {
    var gs := Guards(env, data);
    if !gs[3].passes {
      FirstFailureAt(gs, 3);
    } else if !gs[4].passes {
      FirstFailureAt(gs, 4);
    } else {
      FirstFailureAt(gs, 5);
    }
  }

  /** The chain once the fetched file is there: the content checks and the
      stash and publish steps. */
  lemma {:induction false} SubmitCheckLate(data: RequestData, env: UploadEnv)
    requires var gs := Guards(env, data);
      gs[0].passes && gs[1].passes && gs[2].passes && gs[3].passes && gs[4].passes && gs[5].passes
    ensures SubmitCheck(data, env) == FirstFailure(Guards(env, data))
  {
    var gs := Guards(env, data);
    if !gs[6].passes {
      FirstFailureAt(gs, 6);
    } else if !gs[7].passes {
      FirstFailureAt(gs, 7);
    } else if !gs[8].passes {
      FirstFailureAt(gs, 8);
    } else if !gs[9].passes {
      FirstFailureAt(gs, 9);
    } else if !gs[10].passes {
      FirstFailureAt(gs, 10);
    } else {
      FirstFailureAt(gs, 11);
    }
  }

  /** The first failing guard decides the chain. */
  lemma {:induction false} FirstFailureAt<E>(gs: seq<Guard<E>>, i: int)
    requires 0 <= i <= |gs|
    requires forall j :: 0 <= j < i ==> gs[j].passes
    requires i < |gs| ==> !gs[i].passes
    ensures FirstFailure(gs) == if i < |gs| then Some(gs[i].error) else None
    decreases i
  {
    if i > 0 {
      FirstFailureAt(gs[1..], i - 1);
      assert gs == [gs[0]] + gs[1..];
      FirstFailureCons(gs[0], gs[1..]);
    } else if i < |gs| {
      assert gs == [gs[0]] + gs[1..];
      FirstFailureCons(gs[0], gs[1..]);
    } else {
      assert gs == [];
    }
  }

  /** A row is written exactly when every guard passes; otherwise the
      submission fails with the first failing guard's error. */
  lemma OnSubmitAcceptedIffAllPass(data: RequestData, user: User, env: UploadEnv, site: Site)
    ensures OnSubmit(data, user, env, site).Accepted? <==>
      forall i :: 0 <= i < |Guards(env, data)| ==> Guards(env, data)[i].passes
    ensures OnSubmit(data, user, env, site).Rejected? ==>
      exists i :: 0 <= i < |Guards(env, data)| && !Guards(env, data)[i].passes
        && Guards(env, data)[i].error == OnSubmit(data, user, env, site).error
        && forall j :: 0 <= j < i ==> Guards(env, data)[j].passes
  {
    SubmitCheckFirstFailure(data, env);
  }

  /** A user is told of a new request exactly when a configured name
      resolves to them, they handle requests, and, when CreateWiki marks the
      target wiki private, they may also view private requests: the log type
      decides the audience. */
  lemma PrivateTargetsNarrowAudience(names: seq<string>, userNamed: string -> Option<User>, target: string, site: Site, u: User)
    ensures u in NotifiedUsers(names, userNamed, GetLogType(target, site)) <==>
      && (exists i :: 0 <= i < |names| && userNamed(names[i]) == Some(u))
      && HandleRequests in u.rights
      && (site.createWikiLoaded && site.usePrivateWikis && site.wikiIsPrivate(target) ==> ViewPrivateRequests in u.rights)
  {
  }

  /** A stored row blocks a reason exactly while it is pending: once a
      reviewer moves it to another status, the reason is free again as far
      as that row is concerned. */
  lemma DuplicateOnlyWhilePending(rows: seq<Row>, row: Row, data: RequestData)
    ensures IsDuplicate(rows + [row], data) <==>
      IsDuplicate(rows, data) || (row.reason == data.reason && row.status == Pending)
  {
    var all := rows + [row];
    assert forall i :: 0 <= i < |rows| ==> all[i] == rows[i];
    assert all[|rows|] == row;
  }

  /** Whether a submission is a duplicate does not depend on its target:
      while a request is pending, a second one with the same reason is
      refused even when it is for a different wiki. */
  lemma DuplicateIgnoresTarget(rows: seq<Row>, data: RequestData, otherTarget: string)
    ensures IsDuplicate(rows, data) <==> IsDuplicate(rows, data.(target := otherTarget))
  {
  }

  /** Right after an accepted row is stored, and while it stays pending, a
      submission with the same reason is a duplicate, whatever its target. */
  lemma AcceptedBlocksSameReason(data: RequestData, user: User, env: UploadEnv, site: Site, next: RequestData)
    requires OnSubmit(data, user, env, site).Accepted?
    requires next.reason == data.reason
    ensures IsDuplicate(env.rows + [OnSubmit(data, user, env, site).filed.row], next)
  {
    var rows := env.rows + [OnSubmit(data, user, env, site).filed.row];
    assert rows[|env.rows|].reason == next.reason && rows[|env.rows|].status == Pending;
  }

  // ---------------------------------------------------------------------
  // Opening the page.

  /** The user's standing as `checkPermissions` reads it. */
  datatype Standing = Standing(
    uploadPermission: Option<string>,
    locallyBlocked: bool,
    blockedFromUpload: bool,
    blockAppliesToRequestRight: bool,
    globallyBlocked: bool,
    readOnly: bool,
    uploadsEnabled: bool)

  /** The errors opening the page can throw. */
  datatype PageError =
    | NotCentralWiki
    | PageNotLoggedIn
    | RestrictedRight
    | UploadNotAllowed(requiredRight: string)
    | LocallyBlocked
    | GloballyBlocked
    | ReadOnly
    | UploadsDisabled

  /** The checks of `checkPermissions` as a list, in the order it makes
      them. */
  function PermissionGuards(user: User, st: Standing): (gs: seq<Guard<PageError>>)
    ensures |gs| == 6
  {
    [ Guard(RequestImportDump in user.rights, RestrictedRight),
      Guard(st.uploadPermission.None?, UploadNotAllowed(if st.uploadPermission.Some? then st.uploadPermission.value else "")),
      Guard(!(st.locallyBlocked && (st.blockedFromUpload || st.blockAppliesToRequestRight)), LocallyBlocked),
      Guard(!st.globallyBlocked, GloballyBlocked),
      Guard(!st.readOnly, ReadOnly),
      Guard(st.uploadsEnabled, UploadsDisabled) ]
  }

  /** `checkPermissions`, in order: the page's own right, the upload
      permission, a local block that stops uploads or this right, a global
      block, read-only mode, and uploads being enabled. */
  function CheckPermissions(user: User, st: Standing): (e: Option<PageError>)
    ensures e == Some(LocallyBlocked) ==> st.locallyBlocked
    ensures st.locallyBlocked && !st.blockedFromUpload && !st.blockAppliesToRequestRight ==> e != Some(LocallyBlocked)
    ensures st.globallyBlocked ==> e.Some?
    ensures e.None? <==>
      && RequestImportDump in user.rights
      && st.uploadPermission.None?
      && !(st.locallyBlocked && (st.blockedFromUpload || st.blockAppliesToRequestRight))
      && !st.globallyBlocked
      && !st.readOnly
      && st.uploadsEnabled
  {
    if RequestImportDump !in user.rights then Some(RestrictedRight)
    else if st.uploadPermission.Some? then Some(UploadNotAllowed(st.uploadPermission.value))
    else if st.locallyBlocked && (st.blockedFromUpload || st.blockAppliesToRequestRight) then Some(LocallyBlocked)
    else if st.globallyBlocked then Some(GloballyBlocked)
    else if st.readOnly then Some(ReadOnly)
    else if !st.uploadsEnabled then Some(UploadsDisabled)
    else None
  }

  /** `execute` up to showing the form: a configured central wiki other
      than this one refuses first, then an anonymous user, then the
      permission checks. */
  function Execute(centralWiki: Option<string>, currentWiki: string, user: User, st: Standing): (e: Option<PageError>)
    ensures !FalsyOpt(centralWiki) && centralWiki.value != currentWiki ==> e == Some(NotCentralWiki)
    ensures e.None? ==> user.registered && CheckPermissions(user, st).None?
    ensures (FalsyOpt(centralWiki) || centralWiki.value == currentWiki) && !user.registered ==> e == Some(PageNotLoggedIn)
    ensures (FalsyOpt(centralWiki) || centralWiki.value == currentWiki) && user.registered ==> e == CheckPermissions(user, st)
  {
    if !FalsyOpt(centralWiki) && centralWiki.value != currentWiki then Some(NotCentralWiki)
    else if !user.registered then Some(PageNotLoggedIn)
    else CheckPermissions(user, st)
  }

  /** The chain of `checkPermissions` is its guard list read
      first-failure-wins: the error thrown is the first failing check's. */
  lemma {:induction false} CheckPermissionsFirstFailure(user: User, st: Standing)
    ensures CheckPermissions(user, st) == FirstFailure(PermissionGuards(user, st))
  {
    var gs := PermissionGuards(user, st);
    if !gs[0].passes {
      FirstFailureAt(gs, 0);
    } else if !gs[1].passes {
      FirstFailureAt(gs, 1);
    } else if !gs[2].passes {
      FirstFailureAt(gs, 2);
    } else if !gs[3].passes {
      FirstFailureAt(gs, 3);
    } else if !gs[4].passes {
      FirstFailureAt(gs, 4);
    } else if !gs[5].passes {
      FirstFailureAt(gs, 5);
    } else {
      FirstFailureAt(gs, 6);
    }
  }

  /** Opening the page is one guard chain: the central-wiki check, the login
      check, then the checks of `checkPermissions`; the error shown is the
      first failing one's. */
  lemma {:induction false} ExecuteFirstFailure(centralWiki: Option<string>, currentWiki: string, user: User, st: Standing)
    ensures Execute(centralWiki, currentWiki, user, st) ==
      FirstFailure([Guard(FalsyOpt(centralWiki) || centralWiki.value == currentWiki, NotCentralWiki),
                    Guard(user.registered, PageNotLoggedIn)] + PermissionGuards(user, st))
  {
    var central := Guard(FalsyOpt(centralWiki) || centralWiki.value == currentWiki, NotCentralWiki);
    var login := Guard(user.registered, PageNotLoggedIn);
    var perms := PermissionGuards(user, st);
    CheckPermissionsFirstFailure(user, st);
    FirstFailureCons(login, perms);
    FirstFailureCons(central, [login] + perms);
    assert [central, login] + perms == [central] + ([login] + perms);
  }
}

=== FILE: ordered_array.dfy ===
/** PHP's ordered array, as far as the form descriptor uses it: a sequence of
    key/value entries in insertion order, with element assignment
    (`$a[$k] = $v`, which overwrites in place or appends) and array union
    (`$a += $b`, which appends only the keys `$a` does not have yet). */
module OrderedArray {
  import opened Php

  datatype Entry<K, V> = Entry(key: K, value: V)

  /** The keys present in an array. */
  function Keys<K, V>(a: seq<Entry<K, V>>): set<K>
  {
    if |a| == 0 then {} else {a[0].key} + Keys(a[1..])
  }

  /** `$a[$k] ?? null`: the value stored under a key. */
  function Lookup<K(==), V>(a: seq<Entry<K, V>>, k: K): (r: Option<V>)
    ensures r.None? <==> k !in Keys(a)
  {
    if |a| == 0 then None
    else if a[0].key == k then Some(a[0].value)
    else Lookup(a[1..], k)
  }

  /** No key occurs twice: the shape every PHP array has. */
  predicate UniqueKeys<K(==), V>(a: seq<Entry<K, V>>)
  {
    |a| == 0 || (a[0].key !in Keys(a[1..]) && UniqueKeys(a[1..]))
  }

  /** Appending an entry adds its key, and a lookup of any key already
      present is unaffected. */
  lemma {:induction false} AppendEntry<K, V>(a: seq<Entry<K, V>>, e: Entry<K, V>)
    ensures Keys(a + [e]) == Keys(a) + {e.key}
    ensures forall k :: Lookup(a + [e], k) == if k in Keys(a) then Lookup(a, k) else if k == e.key then Some(e.value) else None
    ensures UniqueKeys(a) && e.key !in Keys(a) ==> UniqueKeys(a + [e])
  {
    if |a| == 0 {
      assert [] + [e] == [e];
      assert [e][1..] == [];
    } else {
      assert (a + [e])[1..] == a[1..] + [e];
      AppendEntry(a[1..], e);
    }
  }

  /** `$a[$k] = $v`. */
  function Assign<K(==,!new), V>(a: seq<Entry<K, V>>, k: K, v: V): (r: seq<Entry<K, V>>)
    ensures Keys(r) == Keys(a) + {k}
    ensures Lookup(r, k) == Some(v)
    ensures forall k' :: k' != k ==> Lookup(r, k') == Lookup(a, k')
    ensures UniqueKeys(a) ==> UniqueKeys(r)
  {
    if |a| == 0 then
      assert [Entry(k, v)][1..] == [];
      [Entry(k, v)]
    else if a[0].key == k then
      var r := [Entry(k, v)] + a[1..];
      assert r[1..] == a[1..];
      r
    else
      var tail := Assign(a[1..], k, v);
      var r := [a[0]] + tail;
      assert r[1..] == tail;
      r
  }

  /** Where `$a[$k] = $v` puts the entry: in place when the key is present,
      at the end otherwise. */
  lemma {:induction false} AssignPlace<K(!new), V>(a: seq<Entry<K, V>>, k: K, v: V)
    ensures k in Keys(a) ==> |Assign(a, k, v)| == |a|
    ensures k !in Keys(a) ==> Assign(a, k, v) == a + [Entry(k, v)]
  {
    if |a| > 0 && a[0].key != k {
      AssignPlace(a[1..], k, v);
      assert a == [a[0]] + a[1..];
    }
  }

  /** `$a += $b`. */
  function Union<K(==,!new), V>(a: seq<Entry<K, V>>, b: seq<Entry<K, V>>): (r: seq<Entry<K, V>>)
    ensures Keys(r) == Keys(a) + Keys(b)
    ensures forall k :: Lookup(r, k) == if k in Keys(a) then Lookup(a, k) else Lookup(b, k)
    ensures UniqueKeys(a) ==> UniqueKeys(r)
    decreases |b|
  {
    if |b| == 0 then a
    else
      var b0 := b[0];
      var a' := if b0.key in Keys(a) then a else a + [b0];
      AppendEntry(a, b0);
      Union(a', b[1..])
  }

  /** Where `$a += $b` puts the entries: `$a` stays in front, and with
      disjoint keys the result is `$b` appended to `$a`. */
  lemma {:induction false} UnionPlace<K(!new), V>(a: seq<Entry<K, V>>, b: seq<Entry<K, V>>)
    ensures |a| <= |Union(a, b)| && Union(a, b)[..|a|] == a
    ensures UniqueKeys(b) && Keys(a) !! Keys(b) ==> Union(a, b) == a + b
    decreases |b|
  {
    if |b| > 0 {
      var b0 := b[0];
      var a' := if b0.key in Keys(a) then a else a + [b0];
      AppendEntry(a, b0);
      UnionPlace(a', b[1..]);
      var r := Union(a', b[1..]);
      assert r == Union(a, b);
      assert r[..|a|] == a by {
        assert r[..|a'|] == a';
        assert a'[..|a|] == a;
      }
      UnionConcatStep(a, b, a', r);
    }
  }

  /** One step of `Union` over disjoint keys appends the first entry. */
  lemma UnionConcatStep<K, V>(a: seq<Entry<K, V>>, b: seq<Entry<K, V>>, a': seq<Entry<K, V>>, r: seq<Entry<K, V>>)
    requires |b| > 0
    requires a' == if b[0].key in Keys(a) then a else a + [b[0]]
    requires Keys(a') == Keys(a) + {b[0].key}
    requires UniqueKeys(b[1..]) && Keys(a') !! Keys(b[1..]) ==> r == a' + b[1..]
    ensures UniqueKeys(b) && Keys(a) !! Keys(b) ==> r == a + b
  {
    if UniqueKeys(b) && Keys(a) !! Keys(b) {
      KeysFront(b);
      DisjointFront(Keys(a), b[0].key, Keys(b[1..]));
      assert b == [b[0]] + b[1..];
    }
  }

  /** The first entry's key, and the keys after it. */
  lemma KeysFront<K, V>(b: seq<Entry<K, V>>)
    requires |b| > 0
    ensures Keys(b) == {b[0].key} + Keys(b[1..])
    ensures UniqueKeys(b) ==> b[0].key !in Keys(b[1..]) && UniqueKeys(b[1..])
  {
  }

  lemma DisjointFront<K>(a: set<K>, x: K, b: set<K>)
    requires a !! ({x} + b) && x !in b
    ensures x !in a && (a + {x}) !! b
  {
  }

  /** Appending an array whose keys are all new: the result looks a key up in
      whichever of the two holds it. */
  lemma UnionFreshAt<K(!new), V>(a: seq<Entry<K, V>>, g: seq<Entry<K, V>>, k: K)
    requires Keys(a) !! Keys(g)
    ensures Lookup(Union(a, g), k) == if k in Keys(g) then Lookup(g, k) else Lookup(a, k)
  {
    if k in Keys(g) {
      assert k !in Keys(a);
    } else {
      assert Lookup(g, k).None?;
    }
  }

  /** The same, for every key at once. */
  lemma UnionFresh<K(!new), V>(a: seq<Entry<K, V>>, g: seq<Entry<K, V>>)
    requires UniqueKeys(a) && UniqueKeys(g) && Keys(a) !! Keys(g)
    ensures UniqueKeys(Union(a, g))
    ensures Keys(Union(a, g)) == Keys(a) + Keys(g)
    ensures forall k :: Lookup(Union(a, g), k) == if k in Keys(g) then Lookup(g, k) else Lookup(a, k)
  {
    forall k
      ensures Lookup(Union(a, g), k) == if k in Keys(g) then Lookup(g, k) else Lookup(a, k)
    {
      UnionFreshAt(a, g, k);
    }
  }

  /** A key looked up in the last of five arrays that holds it. */
  ghost function LookupLayers<K, V>(a: seq<Entry<K, V>>, g1: seq<Entry<K, V>>, g2: seq<Entry<K, V>>,
                                    g3: seq<Entry<K, V>>, g4: seq<Entry<K, V>>, k: K): Option<V>
  {
    if k in Keys(g4) then Lookup(g4, k)
    else if k in Keys(g3) then Lookup(g3, k)
    else if k in Keys(g2) then Lookup(g2, k)
    else if k in Keys(g1) then Lookup(g1, k)
    else Lookup(a, k)
  }

  /** `$a += $g1; $a += $g2; $a += $g3; $a += $g4` with pairwise disjoint
      key sets, at one key. */
  lemma UnionFourAt<K(!new), V>(a: seq<Entry<K, V>>, g1: seq<Entry<K, V>>, g2: seq<Entry<K, V>>,
                                   g3: seq<Entry<K, V>>, g4: seq<Entry<K, V>>, k: K)
    requires Keys(a) !! Keys(g1) && Keys(a) !! Keys(g2) && Keys(a) !! Keys(g3) && Keys(a) !! Keys(g4)
    requires Keys(g1) !! Keys(g2) && Keys(g1) !! Keys(g3) && Keys(g1) !! Keys(g4)
    requires Keys(g2) !! Keys(g3) && Keys(g2) !! Keys(g4) && Keys(g3) !! Keys(g4)
    ensures Lookup(Union(Union(Union(Union(a, g1), g2), g3), g4), k) == LookupLayers(a, g1, g2, g3, g4, k)
  {
    var a1 := Union(a, g1);
    var a2 := Union(a1, g2);
    var a3 := Union(a2, g3);
    UnionFreshAt(a3, g4, k);
    UnionFreshAt(a2, g3, k);
    UnionFreshAt(a1, g2, k);
    UnionFreshAt(a, g1, k);
    if k !in Keys(g4) {
      if k !in Keys(g3) {
        if k !in Keys(g2) {
          assert Lookup(Union(a3, g4), k) == Lookup(a1, k);
        }
      }
    }
  }

  /** The same, for every key at once. */
  lemma UnionFour<K(!new), V>(a: seq<Entry<K, V>>, g1: seq<Entry<K, V>>, g2: seq<Entry<K, V>>,
                                 g3: seq<Entry<K, V>>, g4: seq<Entry<K, V>>)
    requires UniqueKeys(a)
    requires Keys(a) !! Keys(g1) && Keys(a) !! Keys(g2) && Keys(a) !! Keys(g3) && Keys(a) !! Keys(g4)
    requires Keys(g1) !! Keys(g2) && Keys(g1) !! Keys(g3) && Keys(g1) !! Keys(g4)
    requires Keys(g2) !! Keys(g3) && Keys(g2) !! Keys(g4) && Keys(g3) !! Keys(g4)
    ensures UniqueKeys(Union(Union(Union(Union(a, g1), g2), g3), g4))
    ensures forall k :: Lookup(Union(Union(Union(Union(a, g1), g2), g3), g4), k) == LookupLayers(a, g1, g2, g3, g4, k)
  {
    forall k
      ensures Lookup(Union(Union(Union(Union(a, g1), g2), g3), g4), k) == LookupLayers(a, g1, g2, g3, g4, k)
    {
      UnionFourAt(a, g1, g2, g3, g4, k);
    }
  }
}

=== FILE: php.dfy ===
/** The few pieces of PHP semantics the request workflow leans on: nullable
    values, string truthiness, `ctype_space`, and "first failing check wins"
    guard chains. */
module Php {

  /** A PHP value that may be `null`. */
  datatype Option<+T> = None | Some(value: T)

  /** PHP's `!$s` on a string: only the empty string and "0" are falsy. */
  predicate Falsy(s: string) {
    s == "" || s == "0"
  }

  /** `!$s` on a `?string`: `null` is falsy as well. */
  predicate FalsyOpt(s: Option<string>) {
    s.None? || Falsy(s.value)
  }

  /** The characters `ctype_space` accepts in the C locale: space, and the
      control characters 9 to 13 (tab, line feed, vertical tab, form feed,
      carriage return). */
  predicate IsSpaceChar(c: char) {
    c == ' ' || 9 <= c as int <= 13
  }

  /** `ctype_space($s)`: true of a non-empty string made only of space characters. */
  predicate CtypeSpace(s: string) {
    |s| > 0 && forall i :: 0 <= i < |s| ==> IsSpaceChar(s[i])
  }

  /** The test every "required text" validator of the extension applies:
      `!$s || ctype_space( $s )`. */
  predicate Blank(s: Option<string>) {
    FalsyOpt(s) || CtypeSpace(s.value)
  }

  /** Text a reader would call non-empty, stated without `ctype_space`: it is
      there, it is not PHP's falsy "0", and some character in it is not white
      space. */
  predicate HasContent(s: Option<string>) {
    s.Some? && s.value != "0" && exists i :: 0 <= i < |s.value| && !IsSpaceChar(s.value[i])
  }

  /** The validators' blank test fails exactly on text with content. */
  lemma BlankIffNoContent(s: Option<string>)
    ensures Blank(s) <==> !HasContent(s)
  {
  }

  /** The character scan `ctype_space` performs, written as a loop over the
      string. The validators use the predicate `CtypeSpace`; this loop is the
      second formulation, kept to prove the two agree. */
  method CtypeSpaceScan(s: string) returns (b: bool)
    ensures b <==> CtypeSpace(s)
  {
    if |s| == 0 {
      return false;
    }
    var i := 0;
    while i < |s|
      invariant 0 <= i <= |s|
      invariant forall j :: 0 <= j < i ==> IsSpaceChar(s[j])
    {
      if !IsSpaceChar(s[i]) {
        return false;
      }
      i := i + 1;
    }
    return true;
  }

  /** One check of a guard chain: whether it passes, and the error it reports
      when it does not. */
  datatype Guard<+E> = Guard(passes: bool, error: E)

  /** The error of the first failing guard, or `None` when all pass. This is
      the reference reading of a PHP function that runs its checks in order
      and returns (or throws) at the first one that fails. */
  function FirstFailure<E>(gs: seq<Guard<E>>): (r: Option<E>)
    ensures r.None? <==> forall i :: 0 <= i < |gs| ==> gs[i].passes
    ensures r.Some? ==> exists i :: 0 <= i < |gs| && !gs[i].passes && gs[i].error == r.value
                                    && forall j :: 0 <= j < i ==> gs[j].passes
  {
    if |gs| == 0 then None
    else if !gs[0].passes then Some(gs[0].error)
    else
      var rest := FirstFailure(gs[1..]);
      assert forall i :: 1 <= i < |gs| ==> gs[i] == gs[1..][i - 1];
      rest
  }

  /** Prepending a passing guard does not change the outcome; prepending a
      failing one makes it the outcome. */
  lemma FirstFailureCons<E>(g: Guard<E>, gs: seq<Guard<E>>)
    ensures FirstFailure([g] + gs) == if g.passes then FirstFailure(gs) else Some(g.error)
  {
    assert ([g] + gs)[1..] == gs;
  }
}

=== FILE: requests.dfy ===
/** The import request record and the people who act on it.

    The request manager that loads and stores requests is not part of this
    model; a request is a plain immutable record, and each of the manager's
    setters is a field update on it. */
module Requests {
  import opened Php

  /** The stored workflow status of a request. */
  datatype Status = Pending | InProgress | Complete | Declined

  /** The user rights the extension consults:
      `request-import-dump`, `handle-import-dump-requests`,
      `view-private-import-dump-requests` and `handle-import-dump-interwiki`. */
  datatype Right = RequestImportDump | HandleRequests | ViewPrivateRequests | HandleInterwiki

  /** A user acting on a page: name, actor id, whether the account is
      registered, and the rights it holds on this wiki. */
  datatype User = User(name: string, actorId: int, registered: bool, rights: set<Right>)

  /** The user who filed a request, as the request stores it. */
  datatype Requester = Requester(name: string, actorId: int)

  /** The author of a comment: a real account, or one of the extension's
      system users. */
  datatype Author = Member(name: string, actorId: int) | SystemUser(systemName: string)

  /** System user that signs the comments written when a request is edited. */
  const ExtensionUser: string := "RequestInterwiki Extension"
  /** System user that signs status-change comments carrying a reviewer's note. */
  const StatusUpdateUser: string := "RequestInterwiki Status Update"

  /** The account a user acts as when it signs something itself. */
  function AsAuthor(u: User): Author {
    Member(u.name, u.actorId)
  }

  /** One field changed by an edit, with its old and new value. */
  datatype Change =
    | ReasonChanged(oldReason: string, newReason: string)
    | SourceChanged(oldSource: string, newSource: string)
    | TargetChanged(oldTarget: string, newTarget: string)

  /** A reviewer's note attached to a status change, with the reviewer's name. */
  datatype GivenComment = GivenComment(reviewer: string, note: string)

  /** What a comment says. The extension renders these through localised
      messages; the model keeps their content. */
  datatype CommentBody =
    | Plain(text: string)
    | Reopened(reopenedBy: string, reopenChanges: seq<Change>)
    | Edited(editedBy: string, editChanges: seq<Change>)
    | StatusUpdated(newStatus: Status, given: Option<GivenComment>)

  datatype Comment = Comment(author: Author, timestamp: string, body: CommentBody)

  /** An import request. */
  datatype Request = Request(
    requester: Requester,
    timestamp: string,
    source: string,
    target: string,
    reason: string,
    status: Status,
    isLocked: bool,
    isPrivate: bool,
    interwikiPrefix: Option<string>,
    comments: seq<Comment>)

  /** `addComment`: the comment log only ever grows at its end. */
  function AddComment(r: Request, author: Author, now: string, body: CommentBody): (r': Request)
    ensures |r'.comments| == |r.comments| + 1
    ensures r'.comments[..|r.comments|] == r.comments
    ensures r'.comments[|r.comments|] == Comment(author, now, body)
    ensures r'.(comments := r.comments) == r
  {
    r.(comments := r.comments + [Comment(author, now, body)])
  }

  /** What every operation of the extension keeps about a stored request:
      who filed it and when, and every comment already written, which later
      ones can only follow. */
  ghost predicate Extends(before: Request, after: Request) {
    && after.requester == before.requester
    && after.timestamp == before.timestamp
    && |before.comments| <= |after.comments|
    && after.comments[..|before.comments|] == before.comments
  }

  lemma ExtendsTransitive(a: Request, b: Request, c: Request)
    requires Extends(a, b) && Extends(b, c)
    ensures Extends(a, c)
  {
    assert c.comments[..|a.comments|] == c.comments[..|b.comments|][..|a.comments|];
  }
}

=== FILE: submit.dfy ===
/** `submitForm` of the request viewer: the four actions a submission can
    take on a stored request, the one that runs, and what it leaves behind. */
module ViewerSubmit {
  import opened Php
  import opened Requests
  import opened ViewerForm
  import opened Validators

  /** A flag change made by the handling section, named by the success
      message it produces. */
  datatype FlagChange = MadePrivate | MadePublic | Locked | Unlocked

  /** What the viewer reports after a submission. */
  datatype Outcome =
    | NotLoggedIn
    | NothingSubmitted
    | CommentSaved
    | NoChanges
    | EditSaved
    | InterwikiSaved
    | InterwikiFailed
    | FlagsSaved(messages: seq<FlagChange>)
    | StatusSaved

  /** The comment a status-log entry carries: the reopening summary of an
      edit, or the reviewer's text from the handling section. */
  datatype LogComment = ReopenSummary(changes: seq<Change>) | ReviewerNote(note: string)

  /** Side effects outside the stored request: a status-log entry, a
      notification to the request's subscribers, and a call to the manager's
      interwiki insertion. */
  datatype Effect =
    | StatusLogged(comment: LogComment, newStatus: Status, performer: Author)
    | Notified(body: CommentBody, agent: Author)
    | InterwikiInsertRequested(prefix: string, url: string, performer: Author)

  datatype Submission = Submission(request: Request, outcome: Outcome, effects: seq<Effect>)

  // ---------------------------------------------------------------------
  // The comment action.

  /** The comment branch: the submitted text, signed by the user, is
      appended to the log, and nothing else changes. */
  function SubmitComment(req: Request, form: FormData, user: User, now: string): (s: Submission)
    ensures s.outcome == CommentSaved && s.effects == []
    ensures |s.request.comments| == |req.comments| + 1 && s.request.comments[..|req.comments|] == req.comments
    ensures s.request.comments[|req.comments|] == Comment(AsAuthor(user), now, Plain(form.comment))
    ensures s.request.(comments := req.comments) == req
  {
    Submission(AddComment(req, AsAuthor(user), now, Plain(form.comment)), CommentSaved, [])
  }

  // ---------------------------------------------------------------------
  // The edit action.

  /** Where a change stands in the viewer's list: reason, source, target. */
  function ChangeRank(c: Change): nat {
    match c
    case ReasonChanged(_, _) => 0
    case SourceChanged(_, _) => 1
    case TargetChanged(_, _) => 2
  }

  /** The changes an edit makes, in the order the viewer lists them:
      reason, source, target. */
  function EditChanges(req: Request, form: FormData): (cs: seq<Change>)
    ensures ReasonChanged(req.reason, form.editReason) in cs <==> req.reason != form.editReason
    ensures SourceChanged(req.source, form.editSource) in cs <==> req.source != form.editSource
    ensures TargetChanged(req.target, form.editTarget) in cs <==> req.target != form.editTarget
    ensures forall c :: c in cs ==>
      c == ReasonChanged(req.reason, form.editReason)
      || c == SourceChanged(req.source, form.editSource)
      || c == TargetChanged(req.target, form.editTarget)
    ensures forall i, j :: 0 <= i < j < |cs| ==> ChangeRank(cs[i]) < ChangeRank(cs[j])
    ensures |cs| == 0 <==> req.reason == form.editReason && req.source == form.editSource && req.target == form.editTarget
    ensures |cs| <= 3
  {
    (if req.reason != form.editReason then [ReasonChanged(req.reason, form.editReason)] else [])
    + (if req.source != form.editSource then [SourceChanged(req.source, form.editSource)] else [])
    + (if req.target != form.editTarget then [TargetChanged(req.target, form.editTarget)] else [])
  }

  /** The edit branch. With no change nothing happens; otherwise the three
      fields take the submitted values, and a declined request is reopened
      as pending with a status-log entry and a notification. */
  function SubmitEdit(req: Request, form: FormData, user: User, now: string): (s: Submission)
    ensures s.outcome == NoChanges || s.outcome == EditSaved
    ensures s.outcome == NoChanges <==> EditChanges(req, form) == []
    ensures s.outcome == NoChanges ==> s.request == req && s.effects == []
    ensures s.outcome == EditSaved ==>
      && s.request.reason == form.editReason
      && s.request.source == form.editSource
      && s.request.target == form.editTarget
      && |s.request.comments| == |req.comments| + 1
      && s.request.comments[..|req.comments|] == req.comments
      && s.request.comments[|req.comments|].author == SystemUser(ExtensionUser)
    ensures s.outcome == EditSaved ==>
      s.request.comments[|req.comments|].body ==
        if req.status == Declined then Reopened(user.name, EditChanges(req, form)) else Edited(user.name, EditChanges(req, form))
    ensures s.outcome == EditSaved && req.status == Declined ==>
      && s.request.status == Pending
      && s.effects == [StatusLogged(ReopenSummary(EditChanges(req, form)), Pending, AsAuthor(user)),
                       Notified(s.request.comments[|req.comments|].body, AsAuthor(user))]
    ensures s.outcome == EditSaved && req.status != Declined ==> s.request.status == req.status && s.effects == []
    ensures s.request.isLocked == req.isLocked && s.request.isPrivate == req.isPrivate
  {
    var changes := EditChanges(req, form);
    if changes == [] then Submission(req, NoChanges, [])
    else
      var edited := req.(reason := form.editReason, source := form.editSource, target := form.editTarget);
      if req.status == Declined then
        var body := Reopened(user.name, changes);
        var reopened := AddComment(edited.(status := Pending), SystemUser(ExtensionUser), now, body);
        Submission(reopened, EditSaved,
                   [StatusLogged(ReopenSummary(changes), Pending, AsAuthor(user)), Notified(body, AsAuthor(user))])
      else
        Submission(AddComment(edited, SystemUser(ExtensionUser), now, Edited(user.name, changes)), EditSaved, [])
  }

  // ---------------------------------------------------------------------
  // The interwiki action.

  /** The interwiki branch. The request manager's insertion is not part of
      this model: whether it succeeded is the `inserted` parameter, and a
      successful one stores the submitted prefix on the request. */
  function SubmitInterwiki(req: Request, form: FormData, user: User, inserted: bool): (s: Submission)
    ensures s.request == if inserted then req.(interwikiPrefix := Some(form.interwikiPrefix)) else req
    ensures s.outcome == (if inserted then InterwikiSaved else InterwikiFailed)
    ensures s.effects == [InterwikiInsertRequested(form.interwikiPrefix, form.interwikiUrl, AsAuthor(user))]
  {
    var stored := if inserted then req.(interwikiPrefix := Some(form.interwikiPrefix)) else req;
    Submission(stored, if inserted then InterwikiSaved else InterwikiFailed,
               [InterwikiInsertRequested(form.interwikiPrefix, form.interwikiUrl, AsAuthor(user))])
  }

  // ---------------------------------------------------------------------
  // The handle action.

  /** The lock change, then the private change, in the order they are made. */
  function FlagChanges(req: Request, form: FormData): (cs: seq<FlagChange>)
    ensures (Locked in cs || Unlocked in cs) <==> req.isLocked != form.handleLock
    ensures (MadePrivate in cs || MadePublic in cs) <==> form.handlePrivate.Some? && req.isPrivate != form.handlePrivate.value
    ensures Locked in cs ==> form.handleLock && Unlocked !in cs
    ensures Unlocked in cs ==> !form.handleLock && Locked !in cs
    ensures MadePrivate in cs ==> form.handlePrivate == Some(true) && MadePublic !in cs
    ensures MadePublic in cs ==> form.handlePrivate == Some(false) && MadePrivate !in cs
  {
    (if req.isLocked != form.handleLock then [if req.isLocked then Unlocked else Locked] else [])
    + (if form.handlePrivate.Some? && req.isPrivate != form.handlePrivate.value then
         [if req.isPrivate then MadePublic else MadePrivate]
       else [])
  }

  /** The success messages shown for flag changes: private, public, locked,
      unlocked, each if it was made. */
  function FlagMessages(cs: seq<FlagChange>): (ms: seq<FlagChange>)
    ensures MadePrivate in ms <==> MadePrivate in cs
    ensures MadePublic in ms <==> MadePublic in cs
    ensures Locked in ms <==> Locked in cs
    ensures Unlocked in ms <==> Unlocked in cs
    ensures |ms| <= 4
  {
    (if MadePrivate in cs then [MadePrivate] else [])
    + (if MadePublic in cs then [MadePublic] else [])
    + (if Locked in cs then [Locked] else [])
    + (if Unlocked in cs then [Unlocked] else [])
  }

  /** The note given with a status change: a non-empty, PHP-truthy handle
      comment, signed by the reviewer. */
  function GivenNote(form: FormData, user: User): (g: Option<GivenComment>)
    ensures g.None? <==> Falsy(form.handleComment)
    ensures g.Some? ==> g.value == GivenComment(user.name, form.handleComment)
  {
    if Falsy(form.handleComment) then None else Some(GivenComment(user.name, form.handleComment))
  }

  /** The handle branch. The lock follows the submitted flag, the private
      flag follows the submitted one when the toggle was in the form; a new
      status adds exactly one comment, a status-log entry and a notification. */
  function SubmitHandle(req: Request, form: FormData, user: User, now: string): (s: Submission)
    ensures s.request.isLocked == form.handleLock
    ensures s.request.isPrivate == if form.handlePrivate.Some? then form.handlePrivate.value else req.isPrivate
    ensures s.request.status == form.handleStatus
    ensures s.request.reason == req.reason && s.request.source == req.source && s.request.target == req.target
    ensures form.handleStatus == req.status ==> s.request.comments == req.comments && s.effects == []
    ensures form.handleStatus == req.status ==>
      s.outcome == if FlagChanges(req, form) == [] then NoChanges else FlagsSaved(FlagMessages(FlagChanges(req, form)))
    ensures form.handleStatus != req.status ==>
      && s.outcome == StatusSaved
      && |s.request.comments| == |req.comments| + 1
      && s.request.comments[..|req.comments|] == req.comments
      && s.request.comments[|req.comments|].body ==
           StatusUpdated(form.handleStatus,
                         if Falsy(form.handleComment) then None else Some(GivenComment(user.name, form.handleComment)))
      && (s.request.comments[|req.comments|].author == SystemUser(StatusUpdateUser) <==> !Falsy(form.handleComment))
      && (Falsy(form.handleComment) ==> s.request.comments[|req.comments|].author == AsAuthor(user))
      && s.effects == [StatusLogged(ReviewerNote(form.handleComment), form.handleStatus, AsAuthor(user)),
                       Notified(s.request.comments[|req.comments|].body, AsAuthor(user))]
  {
    var changes := FlagChanges(req, form);
    var locked := req.(isLocked := form.handleLock);
    var flagged := if form.handlePrivate.Some? then locked.(isPrivate := form.handlePrivate.value) else locked;
    if req.status == form.handleStatus then
      Submission(flagged, if changes == [] then NoChanges else FlagsSaved(FlagMessages(changes)), [])
    else
      var given := GivenNote(form, user);
      var body := StatusUpdated(form.handleStatus, given);
      var author := if given.Some? then SystemUser(StatusUpdateUser) else AsAuthor(user);
      var updated := AddComment(flagged.(status := form.handleStatus), author, now, body);
      Submission(updated, StatusSaved,
                 [StatusLogged(ReviewerNote(form.handleComment), form.handleStatus, AsAuthor(user)),
                  Notified(body, AsAuthor(user))])
  }

  // ---------------------------------------------------------------------
  // The dispatcher.

  /** `submitForm`: an anonymous user is refused; otherwise exactly one
      action runs. `interwikiInserted` is what the manager's interwiki
      insertion reports, `now` the time comments are written. */
  function SubmitForm(req: Request, form: FormData, user: User, now: string, interwikiInserted: bool): (s: Submission)
    ensures !user.registered ==> s == Submission(req, NotLoggedIn, [])
    // The comment button wins over every other one.
    ensures s.outcome == CommentSaved <==> user.registered && form.submitComment
    ensures s.outcome == CommentSaved ==>
      s.request == AddComment(req, AsAuthor(user), now, Plain(form.comment)) && s.effects == []
    // The interwiki button counts only when neither comment nor edit was pressed.
    ensures (s.outcome == InterwikiSaved || s.outcome == InterwikiFailed) <==>
      user.registered && !form.submitComment && !form.submitEdit && form.submitInterwiki
    ensures s.outcome == InterwikiSaved <==>
      user.registered && !form.submitComment && !form.submitEdit && form.submitInterwiki && interwikiInserted
    ensures (exists i :: 0 <= i < |s.effects| && s.effects[i].InterwikiInsertRequested?) <==>
      user.registered && !form.submitComment && !form.submitEdit && form.submitInterwiki
    ensures s.outcome == InterwikiSaved || s.outcome == InterwikiFailed ==>
      s.effects == [InterwikiInsertRequested(form.interwikiPrefix, form.interwikiUrl, AsAuthor(user))]
    // Only a successful insertion touches the prefix, and it stores the submitted one.
    ensures s.request.interwikiPrefix != req.interwikiPrefix ==>
      s.outcome == InterwikiSaved && s.request.interwikiPrefix == Some(form.interwikiPrefix)
    ensures s.outcome == InterwikiSaved ==> s.request == req.(interwikiPrefix := Some(form.interwikiPrefix))
    ensures s.outcome == InterwikiFailed ==> s.request == req
    // Only an edit or a handling form changes the status.
    ensures s.request.status != req.status ==>
      user.registered && !form.submitComment && (form.submitEdit || (!form.submitInterwiki && form.submitHandle))
    ensures user.registered && !form.submitComment && form.submitEdit ==> s == SubmitEdit(req, form, user, now)
    ensures user.registered && !form.submitComment && !form.submitEdit && !form.submitInterwiki && form.submitHandle ==>
      s == SubmitHandle(req, form, user, now)
    ensures s.outcome == NothingSubmitted <==>
      user.registered && !form.submitComment && !form.submitEdit && !form.submitInterwiki && !form.submitHandle
    ensures s.outcome == NothingSubmitted ==> s.request == req && s.effects == []
  {
    if !user.registered then Submission(req, NotLoggedIn, [])
    else if form.submitComment then SubmitComment(req, form, user, now)
    else if form.submitEdit then SubmitEdit(req, form, user, now)
    else if form.submitInterwiki then
      var s := SubmitInterwiki(req, form, user, interwikiInserted);
      assert s.effects[0].InterwikiInsertRequested?;
      s
    else if form.submitHandle then SubmitHandle(req, form, user, now)
    else Submission(req, NothingSubmitted, [])
  }

  // ---------------------------------------------------------------------
  // Properties.

  /** Every submission keeps the request's identity and its comment log,
      and adds at most one comment. */
  lemma SubmitFormExtends(req: Request, form: FormData, user: User, now: string, ok: bool)
    ensures Extends(req, SubmitForm(req, form, user, now, ok).request)
    ensures |SubmitForm(req, form, user, now, ok).request.comments| <= |req.comments| + 1
  {
  }

  /** Only a status change, or an edit that reopens a declined request,
      writes to the status log or notifies. */
  lemma NotifiesOnlyOnStatusChange(req: Request, form: FormData, user: User, now: string, ok: bool)
    ensures var s := SubmitForm(req, form, user, now, ok);
      (exists i :: 0 <= i < |s.effects| && s.effects[i].Notified?) <==>
        (s.outcome == StatusSaved || (s.outcome == EditSaved && req.status == Declined))
    ensures var s := SubmitForm(req, form, user, now, ok);
      (exists i :: 0 <= i < |s.effects| && s.effects[i].StatusLogged?) <==>
        (s.outcome == StatusSaved || (s.outcome == EditSaved && req.status == Declined))
  {
    var s := SubmitForm(req, form, user, now, ok);
    if s.outcome == StatusSaved || (s.outcome == EditSaved && req.status == Declined) {
      assert s.effects[0].StatusLogged?;
      assert s.effects[1].Notified?;
    }
  }

  /** Submitting the same edit twice changes nothing the second time. */
  lemma EditIdempotent(req: Request, form: FormData, user: User, now: string, later: string)
    ensures SubmitEdit(SubmitEdit(req, form, user, now).request, form, user, later).outcome == NoChanges
  {
  }

  /** Submitting the same handling form twice changes nothing the second
      time. */
  lemma HandleIdempotent(req: Request, form: FormData, user: User, now: string, later: string)
    ensures var once := SubmitHandle(req, form, user, now).request;
      SubmitHandle(once, form, user, later) == Submission(once, NoChanges, [])
  {
  }

  /** A status selector left at the status the viewer proposes declines an
      invalid open request when the handling form is submitted. */
  lemma ProposedStatusDeclinesInvalid(req: Request, form: FormData, user: User, now: string, p: Platform)
    requires !IsValidRequest(p)
    requires req.status == Pending || req.status == InProgress
    requires form.handleStatus == DisplayStatus(req.status, p)
    ensures SubmitHandle(req, form, user, now).request.status == Declined
    ensures SubmitHandle(req, form, user, now).outcome == StatusSaved
  {
  }

  /** A successful insertion of a prefix the validator accepts retires the
      interwiki part of the handling section for every viewer: the "no
      prefix" warning goes, and so do the interwiki fields. A failed
      insertion leaves the request as it was. */
  lemma InterwikiInsertRetiresFields(req: Request, form: FormData, user: User, now: string, viewer: User, p: Platform)
    requires user.registered && !form.submitComment && !form.submitEdit && form.submitInterwiki
    requires IsValidInterwikiPrefix(Some(form.interwikiPrefix), true) == Valid
    ensures NoInterwikiPrefix !in HandleNotices(SubmitForm(req, form, user, now, true).request, p)
    ensures !Shown(SubmitForm(req, form, user, now, true).request, viewer, HandleInterwikiPrefixField)
    ensures !Shown(SubmitForm(req, form, user, now, true).request, viewer, HandleInterwikiUrlField)
    ensures SubmitForm(req, form, user, now, false).request == req
  {
    BlankIffNoContent(Some(form.interwikiPrefix));
  }

  /** One submission of the viewer's form: the data, who sent it, when, and
      what the manager's interwiki insertion reported. */
  datatype Step = Step(form: FormData, user: User, now: string, interwikiInserted: bool)

  /** The request a sequence of submissions leaves behind. */
  function Replay(req: Request, steps: seq<Step>): Request
    decreases |steps|
  {
    if |steps| == 0 then req
    else
      var st := steps[0];
      Replay(SubmitForm(req, st.form, st.user, st.now, st.interwikiInserted).request, steps[1..])
  }

  /** Over any sequence of submissions, by any users at any times, the
      comment log only grows at its end, by at most one comment a
      submission, and the requester and timestamp never change. */
  lemma {:induction false} ReplayExtends(req: Request, steps: seq<Step>)
    ensures Extends(req, Replay(req, steps))
    ensures |Replay(req, steps).comments| <= |req.comments| + |steps|
    decreases |steps|
  {
    if |steps| > 0 {
      var st := steps[0];
      var next := SubmitForm(req, st.form, st.user, st.now, st.interwikiInserted).request;
      SubmitFormExtends(req, st.form, st.user, st.now, st.interwikiInserted);
      ReplayExtends(next, steps[1..]);
      ExtendsTransitive(req, next, Replay(next, steps[1..]));
    }
  }
}

=== FILE: validators.dfy ===
/** The field validators of the request viewer and of the new-request form.
    Each returns the message HTMLForm shows under the field, or passes. */
module Validators {
  import opened Php
  import opened ViewerForm

  /** A validator's answer: the field passes, or one of the three messages
      `htmlform-required`, `requestinterwiki-invalid-target` and
      `requestinterwiki-invalid-interwiki-url`. */
  datatype Verdict = Valid | Required | InvalidTarget | InvalidInterwikiUrl

  /** `isValidComment`: the comment is required only when the comment
      button was pressed, and then it must have content. */
  function IsValidComment(comment: Option<string>, submitComment: bool): (v: Verdict)
    ensures v == Valid || v == Required
    ensures v == Valid <==> !submitComment || HasContent(comment)
  {
    BlankIffNoContent(comment);
    if submitComment && Blank(comment) then Required else Valid
  }

  /** `isValidReason`: a reason is always required, and must have content. */
  function IsValidReason(reason: Option<string>): (v: Verdict)
    ensures v == Valid || v == Required
    ensures v == Valid <==> HasContent(reason)
  {
    BlankIffNoContent(reason);
    if Blank(reason) then Required else Valid
  }

  /** `isValidInterwikiPrefix`: the prefix is required only when the
      interwiki button was pressed, and then it must have content. */
  function IsValidInterwikiPrefix(prefix: Option<string>, submitInterwiki: bool): (v: Verdict)
    ensures v == Valid || v == Required
    ensures v == Valid <==> !submitInterwiki || HasContent(prefix)
  {
    BlankIffNoContent(prefix);
    if submitInterwiki && Blank(prefix) then Required else Valid
  }

  /** The comparison `in_array` makes between the submitted `?string` and a
      configured database name: `null` equals only the empty string, and two
      strings are compared exactly. PHP's loose `==` also equates numeric
      strings such as "1" and "01"; that case is not modelled. */
  predicate LooseEquals(target: Option<string>, db: string) {
    match target
    case None => db == ""
    case Some(t) => t == db
  }

  /** `in_array( $target, $wgLocalDatabases )`, scanning from the front. */
  function InArray(target: Option<string>, dbs: seq<string>): (found: bool)
    ensures found <==> exists i :: 0 <= i < |dbs| && LooseEquals(target, dbs[i])
  {
    if |dbs| == 0 then false
    else if LooseEquals(target, dbs[0]) then true
    else
      var rest := InArray(target, dbs[1..]);
      assert forall i :: 1 <= i < |dbs| ==> dbs[i] == dbs[1..][i - 1];
      rest
  }

  /** `isValidDatabase`: the target must be one of this farm's databases. */
  function IsValidDatabase(target: Option<string>, localDatabases: seq<string>): (v: Verdict)
    ensures v == Valid || v == InvalidTarget
    ensures target.Some? ==> (v == Valid <==> target.value in localDatabases)
    ensures target.None? ==> (v == Valid <==> "" in localDatabases)
  {
    if InArray(target, localDatabases) then Valid else InvalidTarget
  }

  /** A parsed URL that names both a scheme and a host. */
  predicate HasSchemeAndHost(parts: UrlParts) {
    !FalsyOpt(parts.scheme) && !FalsyOpt(parts.host)
  }

  /** `isValidInterwikiUrl`: checked only when the interwiki button was
      pressed; then the URL is required, and one with content must have a
      scheme and a host. */
  function IsValidInterwikiUrl(url: Option<string>, submitInterwiki: bool, p: Platform): (v: Verdict)
    ensures v == Valid || v == Required || v == InvalidInterwikiUrl
    ensures !submitInterwiki ==> v == Valid
    ensures submitInterwiki ==> (v == Required <==> !HasContent(url))
    ensures submitInterwiki && HasContent(url) ==>
      (v == Valid <==> HasSchemeAndHost(p.parseUrl(url.value)))
    ensures submitInterwiki && HasContent(url) && v != Valid ==> v == InvalidInterwikiUrl
  {
    BlankIffNoContent(url);
    if !submitInterwiki then Valid
    else if Blank(url) then Required
    else if FalsyOpt(p.parseUrl(url.value).scheme) || FalsyOpt(p.parseUrl(url.value).host) then InvalidInterwikiUrl
    else Valid
  }

  /** The comment, prefix and URL validators are the reason validator,
      guarded by their submit button; the URL one then asks in addition for
      a scheme and a host. */
  lemma GuardedValidators(s: Option<string>, pressed: bool, p: Platform)
    ensures IsValidComment(s, pressed) == if pressed then IsValidReason(s) else Valid
    ensures IsValidInterwikiPrefix(s, pressed) == if pressed then IsValidReason(s) else Valid
    ensures pressed ==> (IsValidInterwikiUrl(s, pressed, p) == Required <==> IsValidReason(s) == Required)
    ensures IsValidInterwikiUrl(s, pressed, p) == Valid <==>
      !pressed || (IsValidReason(s) == Valid && HasSchemeAndHost(p.parseUrl(s.value)))
  {
  }
}

=== FILE: viewer_form.dfy ===
/** The request viewer's form: which sections and fields a viewer is shown
    for a request, which of them are disabled, and the status the handling
    section proposes. Also the form data a submission carries back. */
module ViewerForm {
  import opened Php
  import opened OrderedArray
  import opened Requests

  /** What `parse_url` reports about a URL: its scheme and host, `None` when
      the component is missing or the URL cannot be parsed. */
  datatype UrlParts = UrlParts(scheme: Option<string>, host: Option<string>)

  /** What the host platform reports while a request is viewed: whether the
      uploaded dump is still in the file repository and its size, the
      requester's local block, global block and global lock, whether the
      request manager's `isPrivate( true )` disables the private toggle, and
      the URL parser. */
  datatype Platform = Platform(
    fileExists: bool,
    fileSize: int,
    requesterBlocked: bool,
    requesterGloballyBlocked: bool,
    requesterLocked: bool,
    privateToggleDisabled: bool,
    parseUrl: string -> UrlParts)

  datatype Section = Details | Comments | Editing | Handling

  /** The keys of the form descriptor array. `PastCommentField(ts)` is the
      key `'comment' . $timestamp` of a comment already written. */
  datatype FieldKey =
    | SourceField | TargetField | RequesterField | RequestedDateField | StatusField | ReasonField
    | PastCommentField(at: string)
    | CommentField | SubmitCommentField
    | EditSourceField | EditTargetField | EditReasonField | SubmitEditField
    | HandleInfoField | HandleLockField | HandlePrivateField
    | HandleInterwikiInfoField | HandleInterwikiPrefixField | HandleInterwikiUrlField | SubmitInterwikiField
    | HandleStatusField | HandleCommentField | SubmitHandleField

  /** The message boxes of the handling section's info field. */
  datatype Notice =
    | ImportCommand(withFileSize: bool)
    | NoFileFound
    | RequesterGroups
    | PrivateRequest
    | RequesterLocallyBlocked
    | RequesterGloballyBlocked
    | RequesterLocked
    | NoInterwikiPrefix

  /** What a field shows by default. */
  datatype Value =
    | Empty
    | Text(text: string)
    | RequesterInfo(requesterName: string, requesterActorId: int)
    | DateInfo(date: string)
    | StatusLabel(storedStatus: Status)
    | PastEntry(entry: Comment)
    | Info(notices: seq<Notice>)
    | InterwikiHint(forTarget: string)
    | UrlHint(pattern: string)
    | Check(checked: bool)
    | StatusChoice(selected: Status)
    | Button

  datatype Field = Field(section: Section, disabled: bool, value: Value)

  /** Boxes written to the page above the form. */
  datatype Banner = PrivateRequestBanner | LockedRequestBanner

  datatype FormDescriptor = FormDescriptor(banners: seq<Banner>, fields: seq<Entry<FieldKey, Field>>)

  /** The data a submission of the viewer's form carries: which submit button
      was pressed and the fields of each section. `handlePrivate` is `None`
      when the private toggle was not part of the form. */
  datatype FormData = FormData(
    submitComment: bool,
    comment: string,
    submitEdit: bool,
    editSource: string,
    editTarget: string,
    editReason: string,
    submitInterwiki: bool,
    interwikiPrefix: string,
    interwikiUrl: string,
    submitHandle: bool,
    handleLock: bool,
    handlePrivate: Option<bool>,
    handleStatus: Status,
    handleComment: string)

  /** A private request is hidden from a viewer who is not its requester (by
      name) and may not view private requests. */
  predicate HiddenFrom(req: Request, user: User) {
    req.isPrivate && user.name != req.requester.name && ViewPrivateRequests !in user.rights
  }

  /** Reviewers and the requester (by actor id) may comment and edit. */
  predicate MayCommentAndEdit(req: Request, user: User) {
    HandleRequests in user.rights || user.actorId == req.requester.actorId
  }

  predicate IsReviewer(user: User) {
    HandleRequests in user.rights
  }

  /** A request stays actionable while its dump file exists and its requester
      is neither globally blocked nor locked. A local block does not count. */
  predicate IsValidRequest(p: Platform) {
    p.fileExists && !p.requesterGloballyBlocked && !p.requesterLocked
  }

  /** One of the viewer's rewrites: an open status shows as declined. */
  function ShownDeclined(s: Status): Status {
    if s == Pending || s == InProgress then Declined else s
  }

  /** The status the handling section proposes: the stored one, rewritten to
      declined by each of the three invalidating conditions in turn. */
  function DisplayStatus(stored: Status, p: Platform): (shown: Status)
    ensures shown != stored <==> !IsValidRequest(p) && (stored == Pending || stored == InProgress)
    ensures shown != stored ==> shown == Declined
  {
    var afterFile := if !p.fileExists then ShownDeclined(stored) else stored;
    var afterGlobalBlock := if p.requesterGloballyBlocked then ShownDeclined(afterFile) else afterFile;
    if p.requesterLocked then ShownDeclined(afterGlobalBlock) else afterGlobalBlock
  }

  /** The message boxes of the handling section, in page order. */
  function HandleNotices(req: Request, p: Platform): (ns: seq<Notice>)
    ensures RequesterLocallyBlocked in ns <==> p.requesterBlocked
    ensures RequesterGloballyBlocked in ns <==> p.requesterGloballyBlocked
    ensures RequesterLocked in ns <==> p.requesterLocked
    ensures NoFileFound in ns <==> !p.fileExists
    ensures PrivateRequest in ns <==> req.isPrivate
    ensures NoInterwikiPrefix in ns <==> FalsyOpt(req.interwikiPrefix)
  {
    var head := RequestNotices(req, p);
    var blocks := BlockNotices(p);
    var prefix := NoticeIf(FalsyOpt(req.interwikiPrefix), NoInterwikiPrefix);
    NoticeConcat(head, blocks, prefix);
    head + blocks + prefix
  }

  /** The boxes about the request itself: the import command or the missing
      file, the requester's groups, and the private-request warning. */
  function RequestNotices(req: Request, p: Platform): (ns: seq<Notice>)
    ensures NoFileFound in ns <==> !p.fileExists
    ensures PrivateRequest in ns <==> req.isPrivate
    ensures RequesterLocallyBlocked !in ns && RequesterGloballyBlocked !in ns && RequesterLocked !in ns
    ensures NoInterwikiPrefix !in ns
  {
    var command := if p.fileExists then ImportCommand(p.fileSize > 0) else NoFileFound;
    [command, RequesterGroups] + NoticeIf(req.isPrivate, PrivateRequest)
  }

  /** The warnings about the requester's blocks and lock. */
  function BlockNotices(p: Platform): (ns: seq<Notice>)
    ensures RequesterLocallyBlocked in ns <==> p.requesterBlocked
    ensures RequesterGloballyBlocked in ns <==> p.requesterGloballyBlocked
    ensures RequesterLocked in ns <==> p.requesterLocked
    ensures NoFileFound !in ns && PrivateRequest !in ns && NoInterwikiPrefix !in ns
  {
    NoticeIf(p.requesterBlocked, RequesterLocallyBlocked)
    + NoticeIf(p.requesterGloballyBlocked, RequesterGloballyBlocked)
    + NoticeIf(p.requesterLocked, RequesterLocked)
  }

  /** A box is in the list exactly when it is in one of its parts. */
  lemma NoticeConcat(a: seq<Notice>, b: seq<Notice>, c: seq<Notice>)
    ensures forall n :: n in a + b + c <==> n in a || n in b || n in c
  {
  }

  /** A box that is written only under a condition. */
  function NoticeIf(c: bool, n: Notice): (ns: seq<Notice>)
    ensures forall m :: m in ns <==> c && m == n
  {
    if c then [n] else []
  }

  /** The label of the interwiki URL field: the source's scheme and host, with
      `https` and `www.example.com` standing in for a missing one. */
  function InterwikiUrlPattern(source: string, p: Platform): (pattern: string)
  {
    var parts := p.parseUrl(source);
    var scheme := if FalsyOpt(parts.scheme) then "https" else parts.scheme.value;
    var host := if FalsyOpt(parts.host) then "www.example.com" else parts.host.value;
    scheme + "://" + host + "/wiki/$1"
  }

  type Fields = seq<Entry<FieldKey, Field>>

  // Each field group below is a PHP array literal; the model builds it by
  // assigning its entries, in order, into an empty array.

  /** The read-only details section. */
  function DetailFields(req: Request): Fields
  {
    var a := Assign([], SourceField, Field(Details, false, Text(req.source)));
    var a := Assign(a, TargetField, Field(Details, false, Text(req.target)));
    var a := Assign(a, RequesterField, Field(Details, false, RequesterInfo(req.requester.name, req.requester.actorId)));
    var a := Assign(a, RequestedDateField, Field(Details, false, DateInfo(req.timestamp)));
    var a := Assign(a, StatusField, Field(Details, false, StatusLabel(req.status)));
    Assign(a, ReasonField, Field(Details, false, Text(req.reason)))
  }

  /** Index of the last comment written at timestamp `ts`. */
  function LastCommentAt(cs: seq<Comment>, ts: string): (r: Option<nat>)
    ensures r.None? <==> forall i :: 0 <= i < |cs| ==> cs[i].timestamp != ts
    ensures r.Some? ==> r.value < |cs| && cs[r.value].timestamp == ts
    ensures r.Some? ==> forall j :: r.value < j < |cs| ==> cs[j].timestamp != ts
  {
    if |cs| == 0 then None
    else if cs[|cs| - 1].timestamp == ts then Some(|cs| - 1)
    else LastCommentAt(cs[..|cs| - 1], ts)
  }

  function PastCommentEntry(c: Comment): Field {
    Field(Comments, false, PastEntry(c))
  }

  /** The field shown under `'comment' . ts` after the comment log `cs` has
      been added to `a`: the last comment written at `ts`, if any. */
  function ShownAt(a: Fields, cs: seq<Comment>, ts: string): Option<Field> {
    match LastCommentAt(cs, ts)
    case None => Lookup(a, PastCommentField(ts))
    case Some(i) => Some(PastCommentEntry(cs[i]))
  }

  /** The foreach over the comment log: each comment is assigned under
      `'comment' . timestamp`, so of comments sharing a timestamp only the
      last is shown, in the place of the first. */
  function PastCommentFields(a: Fields, cs: seq<Comment>): (r: Fields)
    ensures forall ts :: Lookup(r, PastCommentField(ts)) == ShownAt(a, cs, ts)
    ensures forall k: FieldKey :: !k.PastCommentField? ==> Lookup(r, k) == Lookup(a, k)
    ensures UniqueKeys(a) ==> UniqueKeys(r)
  {
    if |cs| == 0 then a
    else
      var last := cs[|cs| - 1];
      var prefix := PastCommentFields(a, cs[..|cs| - 1]);
      Assign(prefix, PastCommentField(last.timestamp), PastCommentEntry(last))
  }

  /** The comment box and the edit section, disabled while the request is locked. */
  function CommentEditFields(req: Request): Fields
  {
    var locked := req.isLocked;
    var a := Assign([], CommentField, Field(Comments, locked, Empty));
    var a := Assign(a, SubmitCommentField, Field(Comments, locked, Button));
    var a := Assign(a, EditSourceField, Field(Editing, locked, Text(req.source)));
    var a := Assign(a, EditTargetField, Field(Editing, locked, Text(req.target)));
    var a := Assign(a, EditReasonField, Field(Editing, locked, Text(req.reason)));
    Assign(a, SubmitEditField, Field(Editing, locked, Button))
  }

  function HandleHeadFields(req: Request, p: Platform): Fields
  {
    var a := Assign([], HandleInfoField, Field(Handling, false, Info(HandleNotices(req, p))));
    Assign(a, HandleLockField, Field(Handling, false, Check(req.isLocked)))
  }

  /** The private toggle, checked when the request is private; the request
      manager decides whether it is disabled. */
  function PrivateToggleFields(req: Request, p: Platform): Fields
  {
    Assign([], HandlePrivateField, Field(Handling, p.privateToggleDisabled, Check(req.isPrivate)))
  }

  function InterwikiFields(req: Request, p: Platform): Fields
  {
    var a := Assign([], HandleInterwikiInfoField, Field(Handling, false, InterwikiHint(req.target)));
    var a := Assign(a, HandleInterwikiPrefixField, Field(Handling, false, Text("")));
    var a := Assign(a, HandleInterwikiUrlField, Field(Handling, false, UrlHint(InterwikiUrlPattern(req.source, p))));
    Assign(a, SubmitInterwikiField, Field(Handling, false, Button))
  }

  /** The status selector proposes the displayed status and is disabled when
      the request is invalid. */
  function HandleTailFields(req: Request, p: Platform): Fields
  {
    var a := Assign([], HandleStatusField, Field(Handling, !IsValidRequest(p), StatusChoice(DisplayStatus(req.status, p))));
    var a := Assign(a, HandleCommentField, Field(Handling, false, Empty));
    Assign(a, SubmitHandleField, Field(Handling, false, Button))
  }

  /** The private toggle, for viewers who may view private requests. */
  function PrivatePart(req: Request, user: User, p: Platform): Fields {
    if ViewPrivateRequests in user.rights then PrivateToggleFields(req, p) else []
  }

  /** The interwiki fields, for interwiki handlers while the request has no
      prefix yet. */
  function InterwikiPart(req: Request, user: User, p: Platform): Fields {
    if FalsyOpt(req.interwikiPrefix) && HandleInterwiki in user.rights then InterwikiFields(req, p) else []
  }

  /** The handling section, appended field group by field group; a group the
      viewer does not get is appended as the empty array, which changes
      nothing. */
  function HandlingFields(a: Fields, req: Request, user: User, p: Platform): Fields
  {
    Union(Union(Union(Union(a, HandleHeadFields(req, p)), PrivatePart(req, user, p)), InterwikiPart(req, user, p)),
          HandleTailFields(req, p))
  }

  /** The array `getFormDescriptor` assembles, group by group. */
  function BuildDescriptor(req: Request, user: User, p: Platform): FormDescriptor
  {
    if HiddenFrom(req, user) then FormDescriptor([PrivateRequestBanner], [])
    else
      var banners := if req.isLocked then [LockedRequestBanner] else [];
      var a := DetailFields(req);
      var a := PastCommentFields(a, req.comments);
      var a := if MayCommentAndEdit(req, user) then Union(a, CommentEditFields(req)) else a;
      var a := if IsReviewer(user) then HandlingFields(a, req, user, p) else a;
      FormDescriptor(banners, a)
  }

  // ---------------------------------------------------------------------
  // What the descriptor promises, key by key.

  /** Whether the descriptor carries a field under key `k`. */
  ghost predicate Shown(req: Request, user: User, k: FieldKey) {
    && !HiddenFrom(req, user)
    && match k
       case PastCommentField(ts) => exists i :: 0 <= i < |req.comments| && req.comments[i].timestamp == ts
       case CommentField | SubmitCommentField | EditSourceField | EditTargetField | EditReasonField | SubmitEditField =>
         MayCommentAndEdit(req, user)
       case HandleInfoField | HandleLockField | HandleStatusField | HandleCommentField | SubmitHandleField =>
         IsReviewer(user)
       case HandlePrivateField =>
         IsReviewer(user) && ViewPrivateRequests in user.rights
       case HandleInterwikiInfoField | HandleInterwikiPrefixField | HandleInterwikiUrlField | SubmitInterwikiField =>
         IsReviewer(user) && HandleInterwiki in user.rights && FalsyOpt(req.interwikiPrefix)
       case _ => true
  }

  /** Whether the field under key `k` is disabled: the comment and edit
      fields while locked, the private toggle when the request manager
      says so, the status
      selector while the request is invalid, nothing else. */
  ghost predicate DisabledField(req: Request, p: Platform, k: FieldKey) {
    match k
    case CommentField | SubmitCommentField | EditSourceField | EditTargetField | EditReasonField | SubmitEditField =>
      req.isLocked
    case HandlePrivateField => p.privateToggleDisabled
    case HandleStatusField => !IsValidRequest(p)
    case _ => false
  }

  /** The keys of the details section. */
  predicate IsDetailKey(k: FieldKey) {
    k.SourceField? || k.TargetField? || k.RequesterField? || k.RequestedDateField? || k.StatusField? || k.ReasonField?
  }

  /** The keys of the comment box and the edit section. */
  predicate IsCommentEditKey(k: FieldKey) {
    k.CommentField? || k.SubmitCommentField? || k.EditSourceField? || k.EditTargetField? || k.EditReasonField?
    || k.SubmitEditField?
  }

  /** A past-comment key whose timestamp some comment carries. */
  ghost predicate PastShown(req: Request, k: FieldKey) {
    k.PastCommentField? && exists i :: 0 <= i < |req.comments| && req.comments[i].timestamp == k.at
  }

  /** The keys of each PHP array literal of the descriptor. */
  const DetailKeySet: set<FieldKey> := {SourceField, TargetField, RequesterField, RequestedDateField, StatusField, ReasonField}
  const CommentEditKeySet: set<FieldKey> :=
    {CommentField, SubmitCommentField, EditSourceField, EditTargetField, EditReasonField, SubmitEditField}
  const HeadKeySet: set<FieldKey> := {HandleInfoField, HandleLockField}
  const PrivateKeySet: set<FieldKey> := {HandlePrivateField}
  const InterwikiKeySet: set<FieldKey> :=
    {HandleInterwikiInfoField, HandleInterwikiPrefixField, HandleInterwikiUrlField, SubmitInterwikiField}
  const TailKeySet: set<FieldKey> := {HandleStatusField, HandleCommentField, SubmitHandleField}

  /** The key classes, as sets. */
  lemma KeyClasses(k: FieldKey)
    ensures IsDetailKey(k) <==> k in DetailKeySet
    ensures IsCommentEditKey(k) <==> k in CommentEditKeySet
    ensures GroupOf(k) == Some(HeadGroup) <==> k in HeadKeySet
    ensures GroupOf(k) == Some(PrivateGroup) <==> k in PrivateKeySet
    ensures GroupOf(k) == Some(InterwikiGroup) <==> k in InterwikiKeySet
    ensures GroupOf(k) == Some(TailGroup) <==> k in TailKeySet
  {
  }

  lemma DetailFieldsKeys(req: Request)
    ensures UniqueKeys(DetailFields(req))
    ensures forall k :: Lookup(DetailFields(req), k).Some? <==> IsDetailKey(k)
  {
    assert Keys(DetailFields(req)) == DetailKeySet;
    forall k
      ensures Lookup(DetailFields(req), k).Some? <==> IsDetailKey(k)
    {
      KeyClasses(k);
    }
  }

  lemma DetailFieldsEnabled(req: Request)
    ensures forall k :: Lookup(DetailFields(req), k).Some? ==> !Lookup(DetailFields(req), k).value.disabled
    ensures Lookup(DetailFields(req), StatusField) == Some(Field(Details, false, StatusLabel(req.status)))
  {
  }

  lemma CommentEditFieldsKeys(req: Request)
    ensures UniqueKeys(CommentEditFields(req))
    ensures forall k :: Lookup(CommentEditFields(req), k).Some? <==> IsCommentEditKey(k)
  {
    assert Keys(CommentEditFields(req)) == CommentEditKeySet;
    forall k
      ensures Lookup(CommentEditFields(req), k).Some? <==> IsCommentEditKey(k)
    {
      KeyClasses(k);
    }
  }

  lemma CommentEditFieldsLocked(req: Request)
    ensures forall k :: Lookup(CommentEditFields(req), k).Some? ==>
      Lookup(CommentEditFields(req), k).value.disabled == req.isLocked
  {
  }

  /** The parts of the handling section, each one PHP array literal. */
  datatype HandlingGroup = HeadGroup | PrivateGroup | InterwikiGroup | TailGroup

  /** The handling group a key belongs to, if any. */
  function GroupOf(k: FieldKey): Option<HandlingGroup> {
    match k
    case HandleInfoField | HandleLockField => Some(HeadGroup)
    case HandlePrivateField => Some(PrivateGroup)
    case HandleInterwikiInfoField | HandleInterwikiPrefixField | HandleInterwikiUrlField | SubmitInterwikiField =>
      Some(InterwikiGroup)
    case HandleStatusField | HandleCommentField | SubmitHandleField => Some(TailGroup)
    case _ => None
  }

  /** Whether the handling section includes a group for this viewer: the
      private toggle needs the right to view private requests, and the
      interwiki fields the interwiki right and a request without a prefix. */
  predicate GroupIncluded(req: Request, user: User, g: HandlingGroup) {
    match g
    case HeadGroup => true
    case PrivateGroup => ViewPrivateRequests in user.rights
    case InterwikiGroup => FalsyOpt(req.interwikiPrefix) && HandleInterwiki in user.rights
    case TailGroup => true
  }

  /** The keys the handling section adds for a reviewer. */
  predicate IsHandlingKey(req: Request, user: User, k: FieldKey) {
    GroupOf(k).Some? && GroupIncluded(req, user, GroupOf(k).value)
  }

  /** A field group holding exactly the keys of `grp` when `present`, and
      nothing otherwise, each with its disabled flag. */
  ghost predicate GroupShape(g: Fields, grp: HandlingGroup, present: bool, req: Request, p: Platform) {
    && UniqueKeys(g)
    && (forall k :: k in Keys(g) <==> present && GroupOf(k) == Some(grp))
    && (forall k :: Lookup(g, k).Some? ==> Lookup(g, k).value.disabled == DisabledField(req, p, k))
  }

  lemma HandleHeadKeys(req: Request, p: Platform)
    ensures UniqueKeys(HandleHeadFields(req, p))
    ensures forall k :: k in Keys(HandleHeadFields(req, p)) <==> GroupOf(k) == Some(HeadGroup)
  {
    assert Keys(HandleHeadFields(req, p)) == HeadKeySet;
    forall k
      ensures k in Keys(HandleHeadFields(req, p)) <==> GroupOf(k) == Some(HeadGroup)
    {
      KeyClasses(k);
    }
  }

  lemma HandleHeadDisabled(req: Request, p: Platform)
    ensures forall k :: Lookup(HandleHeadFields(req, p), k).Some? ==>
      Lookup(HandleHeadFields(req, p), k).value.disabled == DisabledField(req, p, k)
  {
  }

  lemma HandleHeadShape(req: Request, p: Platform)
    ensures GroupShape(HandleHeadFields(req, p), HeadGroup, true, req, p)
  {
    HandleHeadKeys(req, p);
    HandleHeadDisabled(req, p);
  }

  lemma PrivateToggleKeys(req: Request, p: Platform)
    ensures UniqueKeys(PrivateToggleFields(req, p))
    ensures forall k :: k in Keys(PrivateToggleFields(req, p)) <==> GroupOf(k) == Some(PrivateGroup)
  {
    assert Keys(PrivateToggleFields(req, p)) == PrivateKeySet;
    forall k
      ensures k in Keys(PrivateToggleFields(req, p)) <==> GroupOf(k) == Some(PrivateGroup)
    {
      KeyClasses(k);
    }
  }

  lemma PrivateToggleDisabled(req: Request, p: Platform)
    ensures forall k :: Lookup(PrivateToggleFields(req, p), k).Some? ==>
      Lookup(PrivateToggleFields(req, p), k).value.disabled == DisabledField(req, p, k)
  {
  }

  lemma PrivateToggleShape(req: Request, p: Platform)
    ensures GroupShape(PrivateToggleFields(req, p), PrivateGroup, true, req, p)
  {
    PrivateToggleKeys(req, p);
    PrivateToggleDisabled(req, p);
  }

  lemma InterwikiKeys(req: Request, p: Platform)
    ensures UniqueKeys(InterwikiFields(req, p))
    ensures forall k :: k in Keys(InterwikiFields(req, p)) <==> GroupOf(k) == Some(InterwikiGroup)
  {
    assert Keys(InterwikiFields(req, p)) == InterwikiKeySet;
    forall k
      ensures k in Keys(InterwikiFields(req, p)) <==> GroupOf(k) == Some(InterwikiGroup)
    {
      KeyClasses(k);
    }
  }

  lemma InterwikiDisabled(req: Request, p: Platform)
    ensures forall k :: Lookup(InterwikiFields(req, p), k).Some? ==>
      Lookup(InterwikiFields(req, p), k).value.disabled == DisabledField(req, p, k)
  {
  }

  lemma InterwikiShape(req: Request, p: Platform)
    ensures GroupShape(InterwikiFields(req, p), InterwikiGroup, true, req, p)
  {
    InterwikiKeys(req, p);
    InterwikiDisabled(req, p);
  }

  lemma HandleTailKeys(req: Request, p: Platform)
    ensures UniqueKeys(HandleTailFields(req, p))
    ensures forall k :: k in Keys(HandleTailFields(req, p)) <==> GroupOf(k) == Some(TailGroup)
  {
    assert Keys(HandleTailFields(req, p)) == TailKeySet;
    forall k
      ensures k in Keys(HandleTailFields(req, p)) <==> GroupOf(k) == Some(TailGroup)
    {
      KeyClasses(k);
    }
  }

  lemma HandleTailDisabled(req: Request, p: Platform)
    ensures forall k :: Lookup(HandleTailFields(req, p), k).Some? ==>
      Lookup(HandleTailFields(req, p), k).value.disabled == DisabledField(req, p, k)
  {
  }

  lemma HandleTailShape(req: Request, p: Platform)
    ensures GroupShape(HandleTailFields(req, p), TailGroup, true, req, p)
  {
    HandleTailKeys(req, p);
    HandleTailDisabled(req, p);
  }

  lemma PrivatePartShape(req: Request, user: User, p: Platform)
    ensures GroupShape(PrivatePart(req, user, p), PrivateGroup, GroupIncluded(req, user, PrivateGroup), req, p)
  {
    PrivateToggleShape(req, p);
  }

  lemma InterwikiPartShape(req: Request, user: User, p: Platform)
    ensures GroupShape(InterwikiPart(req, user, p), InterwikiGroup, GroupIncluded(req, user, InterwikiGroup), req, p)
  {
    InterwikiShape(req, p);
  }

  /** The status selector's entry in its group. */
  lemma HandleTailStatus(req: Request, p: Platform)
    ensures Lookup(HandleTailFields(req, p), HandleStatusField) ==
      Some(Field(Handling, !IsValidRequest(p), StatusChoice(DisplayStatus(req.status, p))))
  {
  }

  /** The info field's entry in its group. */
  lemma HandleHeadInfo(req: Request, p: Platform)
    ensures Lookup(HandleHeadFields(req, p), HandleInfoField) == Some(Field(Handling, false, Info(HandleNotices(req, p))))
  {
  }

  /** Where a key ends up once the four groups are appended to `a`. */
  lemma HandlingLayer(a: Fields, head: Fields, priv: Fields, iw: Fields, tail: Fields,
                      req: Request, user: User, p: Platform, k: FieldKey)
    requires GroupShape(head, HeadGroup, true, req, p)
    requires GroupShape(priv, PrivateGroup, GroupIncluded(req, user, PrivateGroup), req, p)
    requires GroupShape(iw, InterwikiGroup, GroupIncluded(req, user, InterwikiGroup), req, p)
    requires GroupShape(tail, TailGroup, true, req, p)
    ensures IsHandlingKey(req, user, k) ==>
      && LookupLayers(a, head, priv, iw, tail, k).Some?
      && LookupLayers(a, head, priv, iw, tail, k).value.disabled == DisabledField(req, p, k)
    ensures !IsHandlingKey(req, user, k) ==> LookupLayers(a, head, priv, iw, tail, k) == Lookup(a, k)
  {
  }

  /** Key sets drawn from different groups, or from outside the included
      groups, are disjoint. Stated over plain sets so that no array is
      unfolded. */
  lemma HandlingDisjoint(a: set<FieldKey>, head: set<FieldKey>, priv: set<FieldKey>, iw: set<FieldKey>,
                         tail: set<FieldKey>, req: Request, user: User)
    requires forall k :: k in head ==> GroupOf(k) == Some(HeadGroup)
    requires forall k :: k in priv ==> GroupOf(k) == Some(PrivateGroup) && GroupIncluded(req, user, PrivateGroup)
    requires forall k :: k in iw ==> GroupOf(k) == Some(InterwikiGroup) && GroupIncluded(req, user, InterwikiGroup)
    requires forall k :: k in tail ==> GroupOf(k) == Some(TailGroup)
    requires forall k :: k in a ==> !IsHandlingKey(req, user, k)
    ensures a !! head && a !! priv && a !! iw && a !! tail
    ensures head !! priv && head !! iw && head !! tail
    ensures priv !! iw && priv !! tail && iw !! tail
  {
  }

  /** The handling section's four groups, appended in order to `a`: every
      handling key is present with its disabled flag, and every other key is
      looked up in `a`. */
  lemma HandlingUnion(a: Fields, head: Fields, priv: Fields, iw: Fields, tail: Fields,
                      req: Request, user: User, p: Platform)
    requires UniqueKeys(a)
    requires GroupShape(head, HeadGroup, true, req, p)
    requires GroupShape(priv, PrivateGroup, GroupIncluded(req, user, PrivateGroup), req, p)
    requires GroupShape(iw, InterwikiGroup, GroupIncluded(req, user, InterwikiGroup), req, p)
    requires GroupShape(tail, TailGroup, true, req, p)
    requires forall k :: k in Keys(a) ==> !IsHandlingKey(req, user, k)
    ensures UniqueKeys(Union(Union(Union(Union(a, head), priv), iw), tail))
    ensures forall k :: IsHandlingKey(req, user, k) ==>
      && Lookup(Union(Union(Union(Union(a, head), priv), iw), tail), k).Some?
      && Lookup(Union(Union(Union(Union(a, head), priv), iw), tail), k).value.disabled == DisabledField(req, p, k)
    ensures forall k :: !IsHandlingKey(req, user, k) ==>
      Lookup(Union(Union(Union(Union(a, head), priv), iw), tail), k) == Lookup(a, k)
  {
    HandlingDisjoint(Keys(a), Keys(head), Keys(priv), Keys(iw), Keys(tail), req, user);
    UnionFour(a, head, priv, iw, tail);
    var r := Union(Union(Union(Union(a, head), priv), iw), tail);
    forall k
      ensures IsHandlingKey(req, user, k) ==> Lookup(r, k).Some? && Lookup(r, k).value.disabled == DisabledField(req, p, k)
      ensures !IsHandlingKey(req, user, k) ==> Lookup(r, k) == Lookup(a, k)
    {
      HandlingLayer(a, head, priv, iw, tail, req, user, p, k);
    }
  }

  lemma LayersAtPicks(a: Fields, head: Fields, priv: Fields, iw: Fields, tail: Fields,
                      req: Request, user: User, p: Platform)
    requires GroupShape(head, HeadGroup, true, req, p)
    requires GroupShape(priv, PrivateGroup, GroupIncluded(req, user, PrivateGroup), req, p)
    requires GroupShape(iw, InterwikiGroup, GroupIncluded(req, user, InterwikiGroup), req, p)
    requires GroupShape(tail, TailGroup, true, req, p)
    ensures LookupLayers(a, head, priv, iw, tail, HandleStatusField) == Lookup(tail, HandleStatusField)
    ensures LookupLayers(a, head, priv, iw, tail, HandleInfoField) == Lookup(head, HandleInfoField)
  {
    assert GroupOf(HandleStatusField) == Some(TailGroup);
    assert GroupOf(HandleInfoField) == Some(HeadGroup);
  }

  /** The status selector and the info field come from their own groups. */
  lemma HandlingUnionPicks(a: Fields, head: Fields, priv: Fields, iw: Fields, tail: Fields,
                           req: Request, user: User, p: Platform)
    requires UniqueKeys(a)
    requires GroupShape(head, HeadGroup, true, req, p)
    requires GroupShape(priv, PrivateGroup, GroupIncluded(req, user, PrivateGroup), req, p)
    requires GroupShape(iw, InterwikiGroup, GroupIncluded(req, user, InterwikiGroup), req, p)
    requires GroupShape(tail, TailGroup, true, req, p)
    requires forall k :: k in Keys(a) ==> !IsHandlingKey(req, user, k)
    ensures Lookup(Union(Union(Union(Union(a, head), priv), iw), tail), HandleStatusField) == Lookup(tail, HandleStatusField)
    ensures Lookup(Union(Union(Union(Union(a, head), priv), iw), tail), HandleInfoField) == Lookup(head, HandleInfoField)
  {
    HandlingDisjoint(Keys(a), Keys(head), Keys(priv), Keys(iw), Keys(tail), req, user);
    UnionFour(a, head, priv, iw, tail);
    LayersAtPicks(a, head, priv, iw, tail, req, user, p);
  }

  /** The handling section adds exactly the handling keys, with their
      disabled flags, and leaves every other key as it was. */
  lemma HandlingFieldsShape(a: Fields, req: Request, user: User, p: Platform)
    requires UniqueKeys(a)
    requires forall k :: k in Keys(a) ==> !IsHandlingKey(req, user, k)
    ensures UniqueKeys(HandlingFields(a, req, user, p))
    ensures forall k :: IsHandlingKey(req, user, k) ==>
      && Lookup(HandlingFields(a, req, user, p), k).Some?
      && Lookup(HandlingFields(a, req, user, p), k).value.disabled == DisabledField(req, p, k)
    ensures forall k :: !IsHandlingKey(req, user, k) ==> Lookup(HandlingFields(a, req, user, p), k) == Lookup(a, k)
    ensures Lookup(HandlingFields(a, req, user, p), HandleStatusField) ==
      Some(Field(Handling, !IsValidRequest(p), StatusChoice(DisplayStatus(req.status, p))))
    ensures Lookup(HandlingFields(a, req, user, p), HandleInfoField) ==
      Some(Field(Handling, false, Info(HandleNotices(req, p))))
  {
    HandleHeadShape(req, p);
    PrivatePartShape(req, user, p);
    InterwikiPartShape(req, user, p);
    HandleTailShape(req, p);
    HandleTailStatus(req, p);
    HandleHeadInfo(req, p);
    HandlingUnion(a, HandleHeadFields(req, p),
      PrivatePart(req, user, p), InterwikiPart(req, user, p), HandleTailFields(req, p), req, user, p);
    HandlingUnionPicks(a, HandleHeadFields(req, p),
      PrivatePart(req, user, p), InterwikiPart(req, user, p), HandleTailFields(req, p), req, user, p);
  }

  // ---------------------------------------------------------------------
  // The descriptor, built stage by stage.

  /** The keys present once the first `stage` steps of `getFormDescriptor`
      have run: 0 details, 1 past comments, 2 comment and edit, 3 handling. */
  ghost predicate ShownUpTo(stage: nat, req: Request, user: User, k: FieldKey) {
    || IsDetailKey(k)
    || (stage >= 1 && PastShown(req, k))
    || (stage >= 2 && IsCommentEditKey(k) && MayCommentAndEdit(req, user))
    || (stage >= 3 && IsReviewer(user) && IsHandlingKey(req, user, k))
  }

  /** An array holding exactly the keys of the first `stage` steps, each
      with its disabled flag. */
  ghost predicate StageShape(a: Fields, stage: nat, req: Request, user: User, p: Platform) {
    && UniqueKeys(a)
    && (forall k :: Lookup(a, k).Some? <==> ShownUpTo(stage, req, user, k))
    && (forall k :: Lookup(a, k).Some? ==> Lookup(a, k).value.disabled == DisabledField(req, p, k))
  }

  lemma DetailStage(req: Request, user: User, p: Platform)
    ensures StageShape(DetailFields(req), 0, req, user, p)
  {
    var a := DetailFields(req);
    DetailFieldsKeys(req);
    DetailFieldsEnabled(req);
    forall k
      ensures Lookup(a, k).Some? <==> ShownUpTo(0, req, user, k)
      ensures Lookup(a, k).Some? ==> Lookup(a, k).value.disabled == DisabledField(req, p, k)
    {
      if Lookup(a, k).Some? {
        KeyClasses(k);
        assert !DisabledField(req, p, k);
      }
    }
  }

  lemma PastStage(a: Fields, req: Request, user: User, p: Platform)
    requires StageShape(a, 0, req, user, p)
    ensures StageShape(PastCommentFields(a, req.comments), 1, req, user, p)
  {
    var r := PastCommentFields(a, req.comments);
    forall k
      ensures Lookup(r, k).Some? <==> ShownUpTo(1, req, user, k)
      ensures Lookup(r, k).Some? ==> Lookup(r, k).value.disabled == DisabledField(req, p, k)
    {
      if k.PastCommentField? {
        assert Lookup(r, k) == ShownAt(a, req.comments, k.at);
        assert !IsDetailKey(k);
      } else {
        assert Lookup(r, k) == Lookup(a, k);
      }
    }
  }

  /** Appending a comment-and-edit group to the first two steps' fields. */
  lemma CommentEditAppend(a: Fields, ce: Fields, req: Request, user: User, p: Platform)
    requires StageShape(a, 1, req, user, p)
    requires MayCommentAndEdit(req, user)
    requires UniqueKeys(ce)
    requires forall k :: Lookup(ce, k).Some? <==> IsCommentEditKey(k)
    requires forall k :: Lookup(ce, k).Some? ==> Lookup(ce, k).value.disabled == req.isLocked
    ensures StageShape(Union(a, ce), 2, req, user, p)
    ensures forall k :: !IsCommentEditKey(k) ==> Lookup(Union(a, ce), k) == Lookup(a, k)
  {
    forall k | k in Keys(a)
      ensures k !in Keys(ce)
    {
      assert Lookup(a, k).Some?;
      assert !IsCommentEditKey(k);
      assert Lookup(ce, k).None?;
    }
    UnionFresh(a, ce);
    var r := Union(a, ce);
    forall k
      ensures Lookup(r, k).Some? <==> ShownUpTo(2, req, user, k)
      ensures Lookup(r, k).Some? ==> Lookup(r, k).value.disabled == DisabledField(req, p, k)
    {
      if IsCommentEditKey(k) {
        assert Lookup(r, k) == Lookup(ce, k);
      } else {
        assert Lookup(r, k) == Lookup(a, k);
      }
    }
  }

  lemma CommentEditStage(a: Fields, req: Request, user: User, p: Platform)
    requires StageShape(a, 1, req, user, p)
    ensures StageShape(if MayCommentAndEdit(req, user) then Union(a, CommentEditFields(req)) else a, 2, req, user, p)
    ensures MayCommentAndEdit(req, user) ==>
      forall k :: !IsCommentEditKey(k) ==> Lookup(Union(a, CommentEditFields(req)), k) == Lookup(a, k)
  {
    if MayCommentAndEdit(req, user) {
      CommentEditFieldsKeys(req);
      CommentEditFieldsLocked(req);
      CommentEditAppend(a, CommentEditFields(req), req, user, p);
    }
  }

  /** Appending the handling section, given what it adds. */
  lemma HandlingAppend(a: Fields, r: Fields, req: Request, user: User, p: Platform)
    requires StageShape(a, 2, req, user, p)
    requires IsReviewer(user)
    requires UniqueKeys(r)
    requires forall k :: IsHandlingKey(req, user, k) ==>
      Lookup(r, k).Some? && Lookup(r, k).value.disabled == DisabledField(req, p, k)
    requires forall k :: !IsHandlingKey(req, user, k) ==> Lookup(r, k) == Lookup(a, k)
    ensures StageShape(r, 3, req, user, p)
  {
    forall k
      ensures Lookup(r, k).Some? <==> ShownUpTo(3, req, user, k)
      ensures Lookup(r, k).Some? ==> Lookup(r, k).value.disabled == DisabledField(req, p, k)
    {
      if !IsHandlingKey(req, user, k) {
        assert Lookup(r, k) == Lookup(a, k);
      }
    }
  }

  lemma HandlingStage(a: Fields, req: Request, user: User, p: Platform)
    requires StageShape(a, 2, req, user, p)
    ensures StageShape(if IsReviewer(user) then HandlingFields(a, req, user, p) else a, 3, req, user, p)
    ensures IsReviewer(user) ==>
      Lookup(HandlingFields(a, req, user, p), HandleStatusField) ==
      Some(Field(Handling, !IsValidRequest(p), StatusChoice(DisplayStatus(req.status, p))))
    ensures IsReviewer(user) ==>
      Lookup(HandlingFields(a, req, user, p), HandleInfoField) == Some(Field(Handling, false, Info(HandleNotices(req, p))))
    ensures IsReviewer(user) ==>
      forall k :: !IsHandlingKey(req, user, k) ==> Lookup(HandlingFields(a, req, user, p), k) == Lookup(a, k)
  {
    if IsReviewer(user) {
      forall k | k in Keys(a)
        ensures !IsHandlingKey(req, user, k)
      {
        assert Lookup(a, k).Some?;
      }
      HandlingFieldsShape(a, req, user, p);
      HandlingAppend(a, HandlingFields(a, req, user, p), req, user, p);
    }
  }

  /** Whether the descriptor shows a key: the match above, read step by step. */
  lemma ShownByStage(req: Request, user: User, k: FieldKey)
    ensures Shown(req, user, k) <==> !HiddenFrom(req, user) && ShownUpTo(3, req, user, k)
  {
  }

  /** The descriptor's fields are exactly the ones `Shown` names, each
      disabled exactly as `DisabledField` says, and no key occurs twice. */
  lemma DescriptorFields(req: Request, user: User, p: Platform)
    ensures UniqueKeys(BuildDescriptor(req, user, p).fields)
    ensures forall k :: Lookup(BuildDescriptor(req, user, p).fields, k).Some? <==> Shown(req, user, k)
    ensures forall k :: Lookup(BuildDescriptor(req, user, p).fields, k).Some? ==>
      Lookup(BuildDescriptor(req, user, p).fields, k).value.disabled == DisabledField(req, p, k)
  {
    var d := BuildDescriptor(req, user, p);
    if HiddenFrom(req, user) {
      forall k
        ensures Lookup(d.fields, k).Some? <==> Shown(req, user, k)
      {
        assert Lookup(d.fields, k).None?;
      }
    } else {
      StageFields(req, user, p);
      forall k
        ensures Lookup(d.fields, k).Some? <==> Shown(req, user, k)
      {
        ShownByStage(req, user, k);
      }
    }
  }

  /** `getFormDescriptor`: the fields are exactly the ones `Shown` names,
      each disabled exactly as `DisabledField` says, and no key occurs
      twice. */
  function GetFormDescriptor(req: Request, user: User, p: Platform): (d: FormDescriptor)
    ensures UniqueKeys(d.fields)
    ensures forall k :: Lookup(d.fields, k).Some? <==> Shown(req, user, k)
    ensures forall k :: Lookup(d.fields, k).Some? ==> Lookup(d.fields, k).value.disabled == DisabledField(req, p, k)
  {
    DescriptorFields(req, user, p);
    BuildDescriptor(req, user, p)
  }

  /** The stages compose to the descriptor of a visible request. */
  lemma StageFields(req: Request, user: User, p: Platform)
    requires !HiddenFrom(req, user)
    ensures StageShape(BuildDescriptor(req, user, p).fields, 3, req, user, p)
    ensures forall k :: !IsCommentEditKey(k) && !IsHandlingKey(req, user, k) ==>
      Lookup(BuildDescriptor(req, user, p).fields, k) == Lookup(PastCommentFields(DetailFields(req), req.comments), k)
    ensures IsReviewer(user) ==>
      Lookup(BuildDescriptor(req, user, p).fields, HandleStatusField) ==
      Some(Field(Handling, !IsValidRequest(p), StatusChoice(DisplayStatus(req.status, p))))
    ensures IsReviewer(user) ==>
      Lookup(BuildDescriptor(req, user, p).fields, HandleInfoField) ==
      Some(Field(Handling, false, Info(HandleNotices(req, p))))
  {
    var a0 := DetailFields(req);
    DetailStage(req, user, p);
    var a1 := PastCommentFields(a0, req.comments);
    PastStage(a0, req, user, p);
    var a2 := if MayCommentAndEdit(req, user) then Union(a1, CommentEditFields(req)) else a1;
    CommentEditStage(a1, req, user, p);
    HandlingStage(a2, req, user, p);
  }

  /** A private request hidden from the viewer yields no fields and only the
      private-request banner; otherwise the details are always there, and the
      only banner is the locked one, exactly when the request is locked. */
  lemma DescriptorHidden(req: Request, user: User, p: Platform)
    ensures HiddenFrom(req, user) <==> |GetFormDescriptor(req, user, p).fields| == 0
    ensures HiddenFrom(req, user) ==> GetFormDescriptor(req, user, p).banners == [PrivateRequestBanner]
    ensures !HiddenFrom(req, user) ==>
      GetFormDescriptor(req, user, p).banners == if req.isLocked then [LockedRequestBanner] else []
  {
    if !HiddenFrom(req, user) {
      DescriptorFields(req, user, p);
      assert Shown(req, user, SourceField);
    }
  }

  /** The details show the stored status, whatever the request's validity;
      the handling section proposes the displayed one, and its selector is
      disabled exactly when the request is invalid. */
  lemma DescriptorStatus(req: Request, user: User, p: Platform)
    ensures !HiddenFrom(req, user) ==>
      Lookup(GetFormDescriptor(req, user, p).fields, StatusField) == Some(Field(Details, false, StatusLabel(req.status)))
    ensures !HiddenFrom(req, user) && IsReviewer(user) ==>
      Lookup(GetFormDescriptor(req, user, p).fields, HandleStatusField) ==
      Some(Field(Handling, !IsValidRequest(p), StatusChoice(DisplayStatus(req.status, p))))
  {
    if !HiddenFrom(req, user) {
      StageFields(req, user, p);
      DetailFieldsEnabled(req);
      assert Lookup(PastCommentFields(DetailFields(req), req.comments), StatusField) == Lookup(DetailFields(req), StatusField);
    }
  }

  /** The last comment carrying its timestamp is the one `LastCommentAt` finds. */
  lemma LastCommentAtIs(cs: seq<Comment>, i: int)
    requires 0 <= i < |cs|
    requires forall j :: i < j < |cs| ==> cs[j].timestamp != cs[i].timestamp
    ensures LastCommentAt(cs, cs[i].timestamp) == Some(i)
  {
    var r := LastCommentAt(cs, cs[i].timestamp);
    assert r.Some?;
  }

  /** The comment field for a timestamp shows the last comment written at
      that timestamp. */
  lemma DescriptorPastComments(req: Request, user: User, p: Platform, i: int)
    requires !HiddenFrom(req, user)
    requires 0 <= i < |req.comments|
    requires forall j :: i < j < |req.comments| ==> req.comments[j].timestamp != req.comments[i].timestamp
    ensures Lookup(GetFormDescriptor(req, user, p).fields, PastCommentField(req.comments[i].timestamp)) ==
      Some(Field(Comments, false, PastEntry(req.comments[i])))
  {
    var ts := req.comments[i].timestamp;
    StageFields(req, user, p);
    LastCommentAtIs(req.comments, i);
    assert Lookup(PastCommentFields(DetailFields(req), req.comments), PastCommentField(ts)) ==
      ShownAt(DetailFields(req), req.comments, ts);
  }

  /** `getForm`: the request with this id, if there is one, and its form;
      id 0 is never a request, whatever the store holds. */
  function GetForm(id: int, store: map<int, Request>, user: User, p: Platform): (form: Option<FormDescriptor>)
    ensures form.None? <==> id == 0 || id !in store
    ensures form.Some? ==> (HiddenFrom(store[id], user) <==> |form.value.fields| == 0)
  {
    if id == 0 || id !in store then None
    else
      DescriptorHidden(store[id], user, p);
      Some(GetFormDescriptor(store[id], user, p))
  }

  /** A local block of the requester adds a warning and nothing more: the
      request's validity and the status proposed are those without it. */
  lemma LocalBlockOnlyWarns(req: Request, p: Platform, blocked: bool)
    ensures IsValidRequest(p.(requesterBlocked := blocked)) == IsValidRequest(p)
    ensures DisplayStatus(req.status, p.(requesterBlocked := blocked)) == DisplayStatus(req.status, p)
    ensures RequesterLocallyBlocked in HandleNotices(req, p.(requesterBlocked := blocked)) <==> blocked
  {
  }
}
